=== FILE: README.md ===
# web-crawler, modelled in Dafny

The web crawler reads a job file of `key=value` lines from `jobs/`. It fetches
the job's main page and saves its markdown rendering as
`out/<job>/txt/<basename>.md`. Then it follows, one hop only, every link on
that page that matches one of the job's comma-separated patterns, and saves
each linked page the same way. Last, it packs the files saved in this run
into `out/<job>/<job>_resources.zip`. A companion script asks the user
questions and writes the job file.

This project models that logic as pure functions and proves what it does:

- `Text`, `Paths`, `Url`: the string operations the program relies on.
  - `str.split`, `str.strip` and `str.lower` (ASCII only).
  - `os.path.basename`, `os.path.splitext` and `os.path.join` for POSIX paths.
  - The scheme and network-location part of `urllib.parse.urlsplit` (which
    `urlparse` calls), as in CPython 3.12, 3.11.4 and later, and the matching
    security releases of 3.7 to 3.10: leading C0 controls and spaces
    stripped, tab/CR/LF removed, the scheme recognised before the first `:`
    when it starts with a letter and lower-cased, and the netloc running up to
    the first `/`, `?` or `#` after `//`. Older releases differ.
- `Links`: `extract_external_links`. Root-relative hrefs are prefixed with the
  page's `scheme://netloc`. A link is kept, in document order, when some
  pattern is a substring of it.
- `Config`: `load_config` and how `main` interprets the loaded map.
  - Lines are read with universal newlines.
  - Every stripped line must split on `=` into exactly two pieces, or loading
    fails on the first line that does not.
  - A later key overrides an earlier one.
  - `main_url` is required.
  - Patterns default to `""`.
  - `use_playwright` means true only when it lower-cases to `true`.
  - A wait selector wins over a wait function.
- `JobFile`: the text `create-job.py` writes, and its round trip through
  `load_config` and the interpretation above.
- `Crawl`: `process_website` and the crawl-and-zip part of `main`.
  - The network is a parameter `fetch`. It maps a request (URL, strategy,
    wait condition, 30 000 ms timeout) to `None` for a caught request error,
    or to a page: its markdown and the `href`s of the anchors in its `<body>`.
  - The files already in the job's `txt` folder are the parameter `pre`.
  - A run records the requests made, the manifest (the files saved, in order)
    and the content of each saved file.

Some behaviours of the code that are easy to overlook, all of which the
model keeps:

- A page without a `<body>` makes link extraction fail with an uncaught error.
  The crawl is modelled for fetchers whose pages all have a body
  (`PagesHaveBody`).
- A job file may carry both `wait_selector` and `wait_function`, because
  `create-job.py` writes both when both are given. The selector wins.
- An absent or empty `external_link_patterns` gives the pattern list `[""]`.
  The empty pattern matches every link, so every link on the main page is
  followed (`Links.ExtractLinksEmptyPattern`).
- A value holding `=`, such as a URL with a query string, makes the written job
  file unreadable: loading fails on that line
  (`JobFile.EqualsSignBreaksReadBack`).
- Links on followed pages are never followed. Files are named by the text
  after the URL's last `/`, query and fragment included, plus `.md`, so two
  URLs with the same tail share one file, and a URL ending in `/` is saved as
  `.md`.

## Model

| member | source | states |
|---|---|---|
| `Text.Split` | crawler.py:16 | `str.split` on one character gives at least one piece, and no piece holds the separator |
| `Text.JoinSplit` | crawler.py:16 | joining the pieces of a split with the separator gives back the original string |
| `Text.SplitJoin` | crawler.py:113 | splitting a join of separator-free pieces gives back the pieces |
| `Text.SplitCount` | crawler.py:16 | a split gives one piece more than there are separators, so `key, value = …` needs exactly one `=` |
| `Text.ContainsAt` | crawler.py:71 | `pattern in href` holds exactly when the pattern occurs at some position of the href |
| `Text.Strip` | crawler.py:16 | the stripped line is a contiguous slice of the input with only whitespace around it, has no whitespace at either end, and keeps every non-space character |
| `Text.TrimStart` | crawler.py:16 | the result is a suffix of the input, all characters dropped are whitespace, and the result does not start with whitespace |
| `Text.TrimEnd` | crawler.py:16 | the result is a prefix of the input, all characters dropped are whitespace, and the result does not end with whitespace |
| `Text.Lower` | crawler.py:114 | lower-casing keeps the length and maps each character by itself |
| `Paths.Basename` | crawler.py:125 | the basename is the slash-free tail of the path that follows its last `/` |
| `Paths.SplitExt` | crawler.py:110 | root and extension concatenate to the path; the extension is empty or a single dot-led, slash-free component, and an extension needs a character other than `.` before it in the basename |
| `Paths.SplitExtFindsExtension` | crawler.py:110 | conversely, a `.` in the basename with some other character before it always gives a non-empty extension |
| `Paths.JobBaseNameOfTxt` | crawler.py:110 | the job file `<name>.txt`, for a name without `.` or `/`, has base name `<name>` |
| `Paths.PathJoinPlain` | crawler.py:111 | joining a relative name onto a folder without a trailing slash inserts exactly one `/` |
| `Url.Parse` | crawler.py:33 | the scheme consists of lower-case scheme characters, and the netloc holds no `/?#` and no tab, CR or LF |
| `Url.ParseOfAbsolute` | crawler.py:33 | `scheme://netloc/rest` parses into the lower-cased scheme and exactly that netloc |
| `Url.BaseUrlOfAbsolute` | crawler.py:32-34 | the base of an absolute URL is its lower-cased scheme, `://` and its netloc |
| `Url.BaseUrlWithoutScheme` | crawler.py:32-34 | a URL without a scheme or netloc has base `://` |
| `Links.ResolveShape` | crawler.py:68-70 | a resolved link ends with the href, and is either the href or base+href; with a non-empty base, the href is changed exactly when it starts with `/` |
| `Links.ResolveAll` | crawler.py:67-70 | every anchor is resolved, in order |
| `Links.ExtractLinks` | crawler.py:62-73 | at most one link per anchor, each matching some pattern |
| `Links.FilterMembership` | crawler.py:71-72 | a URL is kept exactly when it matches a pattern and some anchor resolves to it |
| `Links.FilterSubsequence` | crawler.py:67-72 | the kept links are a subsequence of the resolved anchors, in document order |
| `Links.FilterCount` | crawler.py:67-72 | a link matching a pattern is kept as many times as anchors resolve to it, any other link not at all |
| `Links.FilterKeepsAllMatching` | crawler.py:71-72 | when every resolved anchor matches, all of them are kept |
| `Links.ExtractLinksSpec` | crawler.py:62-73 | extraction keeps, in document order and with their multiplicity, exactly the resolved anchors that match a pattern |
| `Links.ExtractLinksAppend` | crawler.py:67-73 | extraction works anchor by anchor: anchors split in two give the two results concatenated |
| `Links.ExtractLinksNoPatterns` | crawler.py:71 | with no patterns at all, no link is kept |
| `Links.ExtractLinksEmptyPattern` | crawler.py:71 | with the empty pattern among the patterns, every resolved anchor is kept |
| `Links.ResolveRootRelative` | crawler.py:63-70 | on a page `scheme://netloc/…`, a root-relative href `/p` becomes `scheme://netloc/p` |
| `Config.NormalizeNewlines` | crawler.py:15 | after newline translation no CR remains, and text without CR is unchanged |
| `Config.NormalizeCrLf` | crawler.py:15 | a `\r\n` pair after CR-free text becomes one `\n`, the rest translated on its own |
| `Config.NormalizeLoneCr` | crawler.py:15 | a `\r` not followed by `\n` after CR-free text becomes `\n`, the rest translated on its own |
| `Config.Lines` | crawler.py:14-15 | no line read from the file holds a line break |
| `Config.LinesCoverText` | crawler.py:14-15 | the lines, each followed by `\n`, give back the translated text, with one `\n` added exactly when that text is non-empty and does not end with one; with no line holding a break, this determines the lines, so no empty line is invented at the end |
| `Config.LinesOfUnlines` | crawler.py:15 | reading back lines written each with a trailing newline gives exactly those lines |
| `Config.ParseLine` | crawler.py:16 | a line is a setting exactly when its stripped text holds one `=`, with key and value the two sides; otherwise it is malformed into as many pieces as split gives |
| `Config.ParseLines` | crawler.py:15-16 | each line is parsed by itself, in order |
| `Config.LoadFailure` | crawler.py:15-17 | loading succeeds exactly when every line is a setting; otherwise it fails on the first malformed line with its piece count |
| `Config.LoadContents` | crawler.py:15-18 | after loading, the keys are the earlier keys plus the file's keys, each bound to the value of its last line |
| `Config.LoadConfigSpec` | crawler.py:12-18 | a job file loads exactly when every line is a setting; the map holds exactly the file's keys, each with the value of its last occurrence |
| `Config.Patterns` | crawler.py:113 | the patterns are the comma-free pieces that join back, with commas, to the setting (empty when absent) |
| `Config.PatternsDefault` | crawler.py:113 | an absent or empty pattern setting gives the single empty pattern |
| `Config.UsePlaywright` | crawler.py:114 | the browser is used exactly when `use_playwright` is present and lower-cases to `true` |
| `Config.WaitConditionOf` | crawler.py:115-119 | wait for the selector exactly when one is given; for the function exactly when there is a function and no selector |
| `Config.ReadJobOutcome` | crawler.py:108-124 | a job file gives a job exactly when every line holds one `=` and some line has the key `main_url`; with every line parsed but no `main_url` line, the error is the missing `main_url` |
| `Config.ReadJobMalformed` | crawler.py:14-16 | a job file with a line that does not split into two pieces fails on the first such line, reporting its index and piece count |
| `Config.InterpretLines` | crawler.py:113-124 | the settings derived from what the lines store are those the lines describe: the last `main_url` line's URL, the comma pieces of the last `external_link_patterns` line (or `[""]`), `true` in any case on the last `use_playwright` line, the last `wait_selector` line before the last `wait_function` line |
| `Config.ReadJobFields` | crawler.py:108-124 | the job read from a file is the one its lines describe, field by field as for `Config.InterpretLines` |
| `JobFile.WrittenSettingsShape` | create-job.py:20-29 | the file holds `main_url`, `external_link_patterns` and `use_playwright` in this order, then a selector and a function line only when those answers are non-empty |
| `JobFile.ConfigTextLines` | create-job.py:20-29 | the written text is one newline-terminated `key=value` line per setting |
| `JobFile.RoundTrip` | create-job.py:20-29 | a job file written from answers without `=`, line breaks or trailing whitespace loads back as exactly the written settings |
| `JobFile.InterpretWritten` | create-job.py:26-29 | the written settings are interpreted as the answered URL, the comma-separated patterns, the chosen strategy and the selector in preference to the function |
| `JobFile.ReadBackJob` | create-job.py:20-29 | the crawler reads a written job file as the job the user answered |
| `JobFile.EqualsSignBreaksReadBack` | create-job.py:21-29 | an answer holding `=` makes the written file fail to load, on a line that splits into three or more pieces |
| `Crawl.OutputName` | crawler.py:125 | a page is saved as the part of its URL after the last `/`, plus `.md`; the name holds no `/` |
| `Crawl.TrailingSlashName` | crawler.py:136 | a URL ending in `/` is saved as `.md` |
| `Crawl.TextPath` | crawler.py:134 | a saved file sits in the archive at `txt/<name>` |
| `Crawl.ProcessWebsite` | crawler.py:84-94 | a request error gives no markdown and no links; otherwise the page's markdown and, in document order and with their multiplicity, exactly the resolved anchors that match a pattern |
| `Crawl.SeedLinksSpec` | crawler.py:130-131 | the links followed are exactly the matching resolved anchors of the main page, in order and with their multiplicity, and none when it could not be fetched |
| `Crawl.CrawlStart` | crawler.py:127-134 | the main page is requested only when its file is absent; it is saved when it has content; otherwise nothing is saved and no link is followed |
| `Crawl.CrawlConsistent` | crawler.py:127-141 | every saved file is listed once, none existed before the run, and none is empty |
| `Crawl.FollowComplete` | crawler.py:135-143 | every followed link whose file did not exist is requested or already saved, and saved whenever its page has content |
| `Crawl.FollowSound` | crawler.py:135-141 | every file saved while following links holds what one of those links gave, under that link's name |
| `Crawl.FollowRequestOrder` | crawler.py:135-138 | the requests made while following links are for a subsequence of the links, in order |
| `Crawl.CrawlFetches` | crawler.py:127-141 | one hop only: the URLs requested are the main page and then some of its links, in order, each with the job's settings and none for a file that existed |
| `Crawl.CrawlManifest` | crawler.py:134-141 | the files to zip are listed once each, the main page first, then files of links in link order |
| `Crawl.CrawlComplete` | crawler.py:132-141 | once the main page is saved, no link is lost: each link whose file did not exist is requested or its name was already saved in this run, and saved when its page has content |
| `Crawl.CrawlNoRefetch` | crawler.py:135-143 | a link whose file was saved earlier in the run is skipped: two requests for the same file name only happen when the earlier one gave no content, so no saved file is fetched again or overwritten |
| `Crawl.CrawlSound` | crawler.py:133-141 | every saved file holds what the main page or one of its links gave, under that URL's name |
| `Crawl.RerunSavesNothing` | crawler.py:129-141 | a second run over the files of the first, with any links and responses: if the first saved something, the second makes no request at all; if it saved nothing, the second runs as if it were the first, and repeats the first exactly when the main page gives the same markdown |
| `Crawl.Archive` | crawler.py:146-148 | the archive has one entry per listed file, in order, under its `txt/` path, with its content |
| `Crawl.ArchivePath` | crawler.py:145 | the archive is `out/<base>/<base>_resources.zip`, with `<base>` the job name without extension |
| `Crawl.ArchivePathOfTxt` | crawler.py:110-111 | the job file `<name>.txt` is archived as `out/<name>/<name>_resources.zip` |
| `Crawl.ArchiveOfConsistent` | crawler.py:146-148 | consistent bookkeeping gives one entry per saved file, under distinct paths, each non-empty |
| `Crawl.CrawlArchive` | crawler.py:127-148 | the archive holds each file saved in the run once, with the content of the page it came from; it is empty exactly when the main page was not saved, and otherwise starts with it |
| `Crawl.CrawlJob` | crawler.py:104-124 | the program fails exactly when the job file cannot be read, with that error |
| `Crawl.CrawlJobFetches` | crawler.py:104-141 | for a readable job, the requests are the main page and then some of its links, in order, with the job's settings |
| `Crawl.CrawlJobArchive` | crawler.py:104-148 | for a readable job, the archive at the job's zip path holds distinct entries, each the non-empty content of the main page or one of its links |
| `Crawl.TextPathInjective` | crawler.py:141 | different file names get different archive paths |

## Left out

- The network, Playwright, `requests`, BeautifulSoup and html2text are left out. A fetch is the parameter `fetch`. It gives a page's markdown and its body's anchor `href`s, or `None` for a `RequestException`. The same request always gives the same page.
- Playwright's `TimeoutError` while waiting is not modelled, because it is caught inside the fetch and only shows up as a different page.
- A page without a `<body>` makes the program fail. It is excluded by the precondition `PagesHaveBody` rather than modelled as a crash.
- Exceptions other than `RequestException`, such as errors of the HTML or markdown libraries and `KeyboardInterrupt`, are not modelled.
- The file system is the set `pre` of names already saved. Creating directories, writing files, the zip's bytes, UTF-8 encoding and `print` are left out.
- The output directories are created before `main_url` is looked up, so a job without one leaves empty folders behind. The model reports only the error.
- Choosing a job interactively (`choose_job`, `inquirer`) is left out. The job name is a parameter.
- `create-job.py`'s questions, its file name and the file write are left out. The answers are a parameter.
- `Url.Parse` does not model urlsplit's two `ValueError`s: the one for a malformed IPv6 netloc, and the one `_checknetloc` raises for a non-ASCII netloc whose NFKC form holds one of `/?#@:` (such as `https://a\uFF03b/`). Neither is caught by `process_website` or `main`, so the program crashes where the model returns a location. It does not model urlsplit's cache either. Fragment, query and path are not computed, because the crawler uses only the scheme and netloc.
- `Text.Lower` lower-cases ASCII letters only. The model uses it to compare with `true` and to lower-case a scheme. No non-ASCII character lower-cases to a letter of `true`, and scheme characters are ASCII, so both uses agree with Python.

=== FILE: config.dfy ===
/**
 * Reading a job file (`load_config`) and turning its key/value map into the
 * settings the crawl runs with (the start of `main`).
 */
module Config {
  import opened Wrappers
  import opened Text

  /**
   * Universal-newline translation done when a text file is read: `\r\n` and a lone
   * `\r` both become `\n`; text without `\r` is unchanged.
   */
  function NormalizeNewlines(s: string): (r: string)
    ensures '\r' !in r
    ensures '\r' !in s ==> r == s
  {
    if |s| == 0 then ""
    else if s[0] == '\r' then
      "\n" + NormalizeNewlines(if |s| > 1 && s[1] == '\n' then s[2..] else s[1..])
    else [s[0]] + NormalizeNewlines(s[1..])
  }

  /** Text without `\r` passes through newline translation unchanged, whatever follows it. */
  lemma {:induction false} NormalizePlainPrefix(a: string, b: string)
    requires '\r' !in a
    ensures NormalizeNewlines(a + b) == a + NormalizeNewlines(b)
    decreases |a|
  {
    if |a| > 0 {
      var c, tail := a[0], a[1..];
      assert a == [c] + tail;
      assert c != '\r' && '\r' !in tail;
      NormalizePlainPrefix(tail, b);
      assert a + b == [c] + (tail + b);
      NormalizeStep(c, tail + b);
    } else {
      assert a + b == b;
    }
  }

  /** A character other than `\r` is copied by newline translation. */
  lemma NormalizeStep(c: char, s: string)
    requires c != '\r'
    ensures NormalizeNewlines([c] + s) == [c] + NormalizeNewlines(s)
  {
    assert ([c] + s)[1..] == s;
  }

  /** A `\r\n` pair becomes one `\n`. */
  lemma NormalizeCrLf(a: string, b: string)
    requires '\r' !in a
    ensures NormalizeNewlines(a + "\r\n" + b) == a + "\n" + NormalizeNewlines(b)
  {
    CrLfStep(b);
    NormalizeAfterPlain(a, "\r\n", b);
  }

  /** A `\r` not followed by `\n` becomes `\n`. */
  lemma NormalizeLoneCr(a: string, b: string)
    requires '\r' !in a && (b == "" || b[0] != '\n')
    ensures NormalizeNewlines(a + "\r" + b) == a + "\n" + NormalizeNewlines(b)
  {
    LoneCrStep(b);
    NormalizeAfterPlain(a, "\r", b);
  }

  /** A line break `brk` translated to `\n` in front of `b` is translated the same after plain text. */
  lemma NormalizeAfterPlain(a: string, brk: string, b: string)
    requires '\r' !in a && NormalizeNewlines(brk + b) == "\n" + NormalizeNewlines(b)
    ensures NormalizeNewlines(a + brk + b) == a + "\n" + NormalizeNewlines(b)
  {
    var nb := NormalizeNewlines(b);
    NormalizePlainPrefix(a, brk + b);
    assert a + brk + b == a + (brk + b);
    assert a + ("\n" + nb) == a + "\n" + nb;
  }

  /** Translation of a leading `\r\n`. */
  lemma CrLfStep(b: string)
    ensures NormalizeNewlines("\r\n" + b) == "\n" + NormalizeNewlines(b)
  {
    var s := "\r\n" + b;
    assert s[0] == '\r' && |s| > 1 && s[1] == '\n' && s[2..] == b;
  }

  /** Translation of a leading `\r` not followed by `\n`. */
  lemma LoneCrStep(b: string)
    requires b == "" || b[0] != '\n'
    ensures NormalizeNewlines("\r" + b) == "\n" + NormalizeNewlines(b)
  {
    var s := "\r" + b;
    assert s[0] == '\r' && s[1..] == b;
    if |s| > 1 {
      assert s[1] == b[0];
    }
  }

  /** Lines written one after another, each followed by `\n`. */
  function Unlines(lines: seq<string>): string
  {
    if |lines| == 0 then "" else lines[0] + "\n" + Unlines(lines[1..])
  }

  /**
   * The lines `for line in file` yields, without their line terminators (every
   * line is stripped before use, so the terminator never matters). A final line
   * without a terminator still counts; an empty file has no lines.
   */
  function Lines(text: string): (lines: seq<string>)
    ensures forall k :: 0 <= k < |lines| ==> '\n' !in lines[k] && '\r' !in lines[k]
  {
    var t := NormalizeNewlines(text);
    var parts := Split(t, '\n');
    JoinSplit(t, '\n');
    forall k | 0 <= k < |parts|
      ensures '\r' !in parts[k]
    {
      JoinedPartHasNoChar(parts, '\n', k, '\r');
    }
    if parts[|parts| - 1] == "" then parts[..|parts| - 1] else parts
  }

  /** A character absent from a joined string is absent from each part. */
  lemma {:induction false} JoinedPartHasNoChar(parts: seq<string>, sep: char, k: nat, c: char)
    requires k < |parts| && c !in Join(parts, sep)
    ensures c !in parts[k]
    decreases |parts|
  {
    if |parts| > 1 {
      assert Join(parts, sep) == parts[0] + [sep] + Join(parts[1..], sep);
      if k > 0 {
        JoinedPartHasNoChar(parts[1..], sep, k - 1, c);
      }
    }
  }

  /** Lines followed by `\n` each are the parts of a `\n`-join that ends in an empty part. */
  lemma {:induction false} UnlinesAsJoin(lines: seq<string>)
    ensures Unlines(lines) == Join(lines + [""], '\n')
    decreases |lines|
  {
    if |lines| > 0 {
      UnlinesAsJoin(lines[1..]);
      assert (lines + [""])[1..] == lines[1..] + [""];
      assert (lines + [""])[0] == lines[0];
    }
  }

  /** The text with a final `\n` added unless it is empty or already ends with one. */
  function Terminated(t: string): string
  {
    if t == "" || t[|t| - 1] == '\n' then t else t + "\n"
  }

  /**
   * The lines read are all of the translated text: written back each with a
   * `\n`, they give the text, with one `\n` more exactly when the text is not
   * empty and does not already end with `\n`. With no line holding a `\n`, this
   * determines the lines: no empty line is invented at the end.
   */
  lemma LinesCoverText(text: string)
    ensures Unlines(Lines(text)) == Terminated(NormalizeNewlines(text))
  {
    var t := NormalizeNewlines(text);
    var parts := Split(t, '\n');
    var lines := Lines(text);
    assert lines == if parts[|parts| - 1] == "" then parts[..|parts| - 1] else parts;
    LinesCoverSplit(t, parts, lines);
  }

  /** `LinesCoverText` for the split of the translated text. */
  lemma LinesCoverSplit(t: string, parts: seq<string>, lines: seq<string>)
    requires parts == Split(t, '\n')
    requires lines == if parts[|parts| - 1] == "" then parts[..|parts| - 1] else parts
    ensures Unlines(lines) == Terminated(t)
  {
    JoinSplit(t, '\n');
    UnlinesAsJoin(lines);
    if parts[|parts| - 1] == "" {
      assert lines + [""] == parts;
      JoinEndsEmpty(parts, t);
    } else {
      JoinSnoc(parts, '\n');
      JoinEndsPlain(parts, t);
    }
  }

  /** A `\n`-join whose last part is empty is empty or ends with `\n`. */
  lemma JoinEndsEmpty(parts: seq<string>, t: string)
    requires |parts| >= 1 && parts[|parts| - 1] == "" && Join(parts, '\n') == t
    ensures Terminated(t) == t
  {
    JoinEnd(parts, '\n');
  }

  /** A `\n`-join whose last part is non-empty and `\n`-free neither is empty nor ends with `\n`. */
  lemma JoinEndsPlain(parts: seq<string>, t: string)
    requires |parts| >= 1 && parts[|parts| - 1] != "" && '\n' !in parts[|parts| - 1]
    requires Join(parts, '\n') == t
    ensures Terminated(t) == t + "\n"
  {
    var last := parts[|parts| - 1];
    JoinEnd(parts, '\n');
    assert t[|t| - 1] == last[|last| - 1];
    assert last[|last| - 1] in last;
  }

  /** A join ends with its last part, with the separator just before it when there are others. */
  lemma {:induction false} JoinEnd(parts: seq<string>, sep: char)
    requires |parts| >= 1
    ensures var j := Join(parts, sep); var last := parts[|parts| - 1];
      && |last| <= |j| && j[|j| - |last|..] == last
      && (|parts| == 1 ==> j == last)
      && (|parts| > 1 ==> |last| < |j| && j[|j| - |last| - 1] == sep)
    decreases |parts|
  {
    if |parts| > 1 {
      var rest := Join(parts[1..], sep);
      var j := parts[0] + [sep] + rest;
      assert Join(parts, sep) == j;
      JoinEnd(parts[1..], sep);
      assert parts[1..][|parts| - 2] == parts[|parts| - 1];
      assert j[|j| - |rest|..] == rest;
    }
  }

  /** Joining with one more, empty, part appends the separator. */
  lemma {:induction false} JoinSnoc(parts: seq<string>, sep: char)
    requires |parts| >= 1
    ensures Join(parts + [""], sep) == Join(parts, sep) + [sep]
    decreases |parts|
  {
    if |parts| == 1 {
      assert parts + [""] == [parts[0], ""];
    } else {
      assert (parts + [""])[1..] == parts[1..] + [""];
      JoinSnoc(parts[1..], sep);
    }
  }

  /** Writing lines out and reading them back gives the same lines. */
  lemma LinesOfUnlines(lines: seq<string>)
    requires forall k :: 0 <= k < |lines| ==> '\n' !in lines[k] && '\r' !in lines[k]
    ensures Lines(Unlines(lines)) == lines
  {
    var parts := lines + [""];
    forall k | 0 <= k < |parts|
      ensures '\n' !in parts[k] && '\r' !in parts[k]
    {
      if k < |lines| {
        assert parts[k] == lines[k];
      }
    }
    UnlinesAsJoin(lines);
    LinesOfJoin(parts);
    assert parts[..|parts| - 1] == lines;
  }

  /** Reading back a `\n`-join whose last part is empty gives the other parts. */
  lemma LinesOfJoin(parts: seq<string>)
    requires |parts| >= 1 && parts[|parts| - 1] == ""
    requires forall k :: 0 <= k < |parts| ==> '\n' !in parts[k] && '\r' !in parts[k]
    ensures Lines(Join(parts, '\n')) == parts[..|parts| - 1]
  {
    JoinHasNoChar(parts, '\n', '\r');
    SplitJoin(parts, '\n');
    LinesOfSplit(Join(parts, '\n'), parts);
  }

  /** A text without `\r` whose split ends in an empty part reads back as the other parts. */
  lemma LinesOfSplit(t: string, parts: seq<string>)
    requires '\r' !in t && Split(t, '\n') == parts
    requires |parts| >= 1 && parts[|parts| - 1] == ""
    ensures Lines(t) == parts[..|parts| - 1]
  {
    assert NormalizeNewlines(t) == t;
  }

  /** Joining parts that lack a character, with a different separator, never produces it. */
  lemma {:induction false} JoinHasNoChar(parts: seq<string>, sep: char, c: char)
    requires c != sep
    requires forall k :: 0 <= k < |parts| ==> c !in parts[k]
    ensures c !in Join(parts, sep)
    decreases |parts|
  {
    if |parts| > 1 {
      JoinHasNoChar(parts[1..], sep, c);
      assert Join(parts, sep) == parts[0] + [sep] + Join(parts[1..], sep);
    }
  }

  /** What one line of a job file turns into. */
  datatype ParsedLine =
    | Entry(key: string, value: string)
    | Malformed(pieces: nat)  // the stripped line split into this many pieces, not 2

  /**
   * `key, value = line.strip().split('=')`: a line that holds exactly one `=` once
   * stripped yields the text on either side of it; any other line (a blank line,
   * a line without `=`, a value holding `=`) raises, reporting how many pieces it had.
   */
  function ParseLine(line: string): (r: ParsedLine)
    ensures r.Entry? <==> multiset(Strip(line))['='] == 1
    ensures r.Entry? ==> r.key + "=" + r.value == Strip(line) && '=' !in r.key && '=' !in r.value
    ensures r.Malformed? ==> r.pieces == multiset(Strip(line))['='] + 1 && r.pieces != 2
  {
    var parts := Split(Strip(line), '=');
    SplitCount(Strip(line), '=');
    JoinSplit(Strip(line), '=');
    if |parts| == 2 then
      assert Join(parts, '=') == parts[0] + "=" + parts[1];
      Entry(parts[0], parts[1])
    else Malformed(|parts|)
  }

  /** Each line parsed on its own. */
  function ParseLines(lines: seq<string>): (ps: seq<ParsedLine>)
    ensures |ps| == |lines|
    ensures forall i :: 0 <= i < |lines| ==> ps[i] == ParseLine(lines[i])
  {
    if |lines| == 0 then [] else [ParseLine(lines[0])] + ParseLines(lines[1..])
  }

  /** Why a job file cannot be used. */
  datatype ConfigError =
    | MalformedLine(index: nat, pieces: nat)  // the line at `index` split into `pieces` pieces
    | MissingMainUrl                          // no `main_url` key

  /** Every line parsed. */
  predicate AllEntries(ps: seq<ParsedLine>)
  {
    forall i :: 0 <= i < |ps| ==> ps[i].Entry?
  }

  /** Some line has key `k`. */
  predicate HasKey(ps: seq<ParsedLine>, k: string)
  {
    exists i :: 0 <= i < |ps| && ps[i].Entry? && ps[i].key == k
  }

  /** No later line repeats the key of line `i`. */
  predicate IsLastWithKey(ps: seq<ParsedLine>, i: nat)
    requires AllEntries(ps) && i < |ps|
  {
    forall j :: i < j < |ps| ==> ps[j].key != ps[i].key
  }

  /**
   * The loop of `load_config`: each line in turn is stored under its key, and the
   * first line that does not parse raises. Parsing is pure, so parsing every line
   * up front and then folding gives the same outcome as parsing inside the loop.
   */
  function Load(ps: seq<ParsedLine>, config: map<string, string>, index: nat): Result<map<string, string>, ConfigError>
    decreases |ps|
  {
    if |ps| == 0 then Success(config)
    else
      match ps[0]
      case Malformed(n) => Failure(MalformedLine(index, n))
      case Entry(k, v) => Load(ps[1..], config[k := v], index + 1)
  }

  /** `load_config` over the text of a job file. */
  function LoadConfig(text: string): Result<map<string, string>, ConfigError>
  {
    Load(ParseLines(Lines(text)), map[], 0)
  }

  /** The loop fails exactly at the first line that does not parse. */
  lemma {:induction false} LoadFailure(ps: seq<ParsedLine>, config: map<string, string>, index: nat)
    ensures Load(ps, config, index).Success? <==> AllEntries(ps)
    ensures Load(ps, config, index).Failure? ==>
      var e := Load(ps, config, index).error;
      && e.MalformedLine?
      && index <= e.index < index + |ps|
      && ps[e.index - index] == Malformed(e.pieces)
      && AllEntries(ps[..e.index - index])
    decreases |ps|
  {
    if |ps| > 0 && ps[0].Entry? {
      var tail := ps[1..];
      var config' := config[ps[0].key := ps[0].value];
      LoadFailure(tail, config', index + 1);
      assert forall i :: 0 < i < |ps| ==> ps[i] == tail[i - 1];
      var r := Load(tail, config', index + 1);
      if r.Failure? {
        var n := r.error.index - index;
        assert forall i :: 0 < i < n ==> ps[..n][i] == tail[..n - 1][i - 1];
      }
    }
  }

  /**
   * What a successful loop stores: exactly the keys of the lines (plus what was
   * there before), each with the value of its last line.
   */
  lemma {:induction false} LoadContents(ps: seq<ParsedLine>, config: map<string, string>, index: nat)
    requires AllEntries(ps)
    ensures Load(ps, config, index).Success?
    ensures var m := Load(ps, config, index).value;
      && (forall k :: k in m <==> k in config || HasKey(ps, k))
      && (forall i :: 0 <= i < |ps| && IsLastWithKey(ps, i) ==> ps[i].key in m && m[ps[i].key] == ps[i].value)
      && (forall k :: k in config && !HasKey(ps, k) ==> m[k] == config[k])
    decreases |ps|
  {
    if |ps| > 0 {
      var tail := ps[1..];
      var k0, v0 := ps[0].key, ps[0].value;
      var config' := config[k0 := v0];
      assert forall i :: 0 < i < |ps| ==> ps[i] == tail[i - 1];
      LoadContents(tail, config', index + 1);
      var m := Load(tail, config', index + 1).value;
      assert Load(ps, config, index) == Load(tail, config', index + 1);
      forall k
        ensures HasKey(ps, k) <==> k == k0 || HasKey(tail, k)
      {
        if HasKey(tail, k) {
          var i :| 0 <= i < |tail| && tail[i].Entry? && tail[i].key == k;
          assert ps[i + 1] == tail[i];
        }
      }
      forall i | 0 <= i < |ps| && IsLastWithKey(ps, i)
        ensures ps[i].key in m && m[ps[i].key] == ps[i].value
      {
        if i > 0 {
          assert IsLastWithKey(tail, i - 1);
        }
      }
    }
  }

  /**
   * `load_config` succeeds exactly when every line holds one `=`; the map then
   * holds exactly the keys of the lines, and a later line overrides an earlier
   * one with the same key.
   */
  lemma LoadConfigSpec(text: string)
    ensures var ps := ParseLines(Lines(text));
      && (LoadConfig(text).Success? <==> AllEntries(ps))
      && (LoadConfig(text).Success? ==>
          var m := LoadConfig(text).value;
          && (forall k :: k in m <==> HasKey(ps, k))
          && (forall i :: 0 <= i < |ps| && IsLastWithKey(ps, i) ==> m[ps[i].key] == ps[i].value))
  {
    var ps := ParseLines(Lines(text));
    LoadFailure(ps, map[], 0);
    if AllEntries(ps) {
      LoadContents(ps, map[], 0);
    }
  }

  /** How the browser strategy waits before it captures the page. */
  datatype WaitCondition =
    | NoWait
    | WaitForSelector(selector: string)     // a CSS selector that must appear
    | WaitForFunction(expression: string)   // a JavaScript condition that must become true

  /** The settings a crawl runs with, as read from a job file. */
  datatype Job = Job(mainUrl: string, patterns: seq<string>, usePlaywright: bool, wait: WaitCondition)

  /** `config.get(key, default)`. */
  function Get(config: map<string, string>, key: string, default: string): string
  {
    if key in config then config[key] else default
  }

  /**
   * `config.get('external_link_patterns', '').split(',')`: the comma-separated
   * pieces of the setting, never an empty list, and joining them back with commas
   * gives the setting.
   */
  function Patterns(config: map<string, string>): (patterns: seq<string>)
    ensures |patterns| >= 1
    ensures forall k :: 0 <= k < |patterns| ==> ',' !in patterns[k]
    ensures Join(patterns, ',') == Get(config, "external_link_patterns", "")
  {
    JoinSplit(Get(config, "external_link_patterns", ""), ',');
    Split(Get(config, "external_link_patterns", ""), ',')
  }

  /** A missing or empty pattern setting gives the one pattern `""`, which every link contains. */
  lemma PatternsDefault(config: map<string, string>)
    requires Get(config, "external_link_patterns", "") == ""
    ensures Patterns(config) == [""]
  {
  }

  /** The sixteen ways of writing `true` in upper and lower case. */
  predicate SpellsTrue(v: string)
  {
    && |v| == 4
    && (v[0] == 't' || v[0] == 'T')
    && (v[1] == 'r' || v[1] == 'R')
    && (v[2] == 'u' || v[2] == 'U')
    && (v[3] == 'e' || v[3] == 'E')
  }

  /**
   * `config.get('use_playwright', 'False').lower() == 'true'`: the browser strategy
   * is chosen exactly when the setting is present and spells `true` in any case.
   */
  function UsePlaywright(config: map<string, string>): (b: bool)
    ensures b <==> "use_playwright" in config && SpellsTrue(config["use_playwright"])
  {
    var v := Get(config, "use_playwright", "False");
    assert Lower(v) == "true" <==> SpellsTrue(v) by {
      if Lower(v) == "true" {
        assert |v| == 4 && forall i :: 0 <= i < 4 ==> LowerChar(v[i]) == "true"[i];
      }
      if SpellsTrue(v) {
        assert forall i :: 0 <= i < 4 ==> Lower(v)[i] == "true"[i];
      }
    }
    assert !SpellsTrue("False");
    Lower(v) == "true"
  }

  /**
   * The wait condition: a `wait_selector` setting wins, a `wait_function` setting
   * is used only without one, and with neither there is no wait.
   */
  function WaitConditionOf(config: map<string, string>): (w: WaitCondition)
    ensures w.WaitForSelector? <==> "wait_selector" in config
    ensures w.WaitForSelector? ==> w.selector == config["wait_selector"]
    ensures w.WaitForFunction? <==> "wait_selector" !in config && "wait_function" in config
    ensures w.WaitForFunction? ==> w.expression == config["wait_function"]
  {
    if "wait_selector" in config then WaitForSelector(config["wait_selector"])
    else if "wait_function" in config then WaitForFunction(config["wait_function"])
    else NoWait
  }

  /**
   * The settings of a loaded job file. Only a missing `main_url` is an error
   * (the `KeyError` of `config['main_url']`); unknown keys are ignored.
   */
  function Interpret(config: map<string, string>): (r: Result<Job, ConfigError>)
    ensures r.Success? <==> "main_url" in config
    ensures r.Failure? ==> r.error == MissingMainUrl
    ensures r.Success? ==>
      && r.value.mainUrl == config["main_url"]
      && r.value.patterns == Patterns(config)
      && r.value.usePlaywright == UsePlaywright(config)
      && r.value.wait == WaitConditionOf(config)
  {
    if "main_url" in config then
      Success(Job(config["main_url"], Patterns(config), UsePlaywright(config), WaitConditionOf(config)))
    else Failure(MissingMainUrl)
  }

  /** Loading and interpreting a job file, the first error winning. */
  function ReadJob(text: string): (r: Result<Job, ConfigError>)
    ensures r.Success? ==> LoadConfig(text).Success? && "main_url" in LoadConfig(text).value
    ensures LoadConfig(text).Failure? ==> r == Failure(LoadConfig(text).error)
    ensures LoadConfig(text).Success? && "main_url" !in LoadConfig(text).value ==>
      r == Failure(MissingMainUrl)
    ensures LoadConfig(text).Success? && "main_url" in LoadConfig(text).value ==>
      var config := LoadConfig(text).value;
      && r.Success?
      && r.value.mainUrl == config["main_url"]
      && r.value.patterns == Patterns(config)
      && r.value.usePlaywright == UsePlaywright(config)
      && r.value.wait == WaitConditionOf(config)
  {
    match LoadConfig(text)
    case Failure(e) => Failure(e)
    case Success(config) => Interpret(config)
  }

  /** `m` is what loading the parsed lines `ps` stores: their keys, each with its last line's value. */
  ghost predicate LoadedFrom(ps: seq<ParsedLine>, m: map<string, string>)
  {
    && AllEntries(ps)
    && (forall k :: k in m <==> HasKey(ps, k))
    && (forall i :: 0 <= i < |ps| && IsLastWithKey(ps, i) ==> ps[i].key in m && m[ps[i].key] == ps[i].value)
  }

  /** Lines that all parse load, storing what they say. */
  lemma LoadLoadedFrom(ps: seq<ParsedLine>)
    requires AllEntries(ps)
    ensures Load(ps, map[], 0).Success? && LoadedFrom(ps, Load(ps, map[], 0).value)
  {
    LoadContents(ps, map[], 0);
  }

  /** A file that loads stores what its lines say. */
  lemma LoadConfigLoadedFrom(text: string)
    requires LoadConfig(text).Success?
    ensures LoadedFrom(ParseLines(Lines(text)), LoadConfig(text).value)
  {
    var ps := ParseLines(Lines(text));
    LoadFailure(ps, map[], 0);
    LoadLoadedFrom(ps);
  }

  /**
   * Which job file texts give a job, stated over the file's lines: a job exactly
   * when every line holds one `=` and some line has the key `main_url`; otherwise
   * the first line that does not parse is reported, and with every line parsed the
   * missing `main_url` is.
   */
  lemma ReadJobOutcome(text: string)
    ensures var ps := ParseLines(Lines(text));
      && (ReadJob(text).Success? <==> AllEntries(ps) && HasKey(ps, "main_url"))
      && (AllEntries(ps) && !HasKey(ps, "main_url") ==> ReadJob(text) == Failure(MissingMainUrl))
  {
    var ps := ParseLines(Lines(text));
    var loaded := LoadConfig(text);
    assert loaded == Load(ps, map[], 0);
    if AllEntries(ps) {
      LoadLoadedFrom(ps);
      assert ReadJob(text) == Interpret(loaded.value);
      InterpretLines(ps, loaded.value);
    } else {
      LoadMalformed(ps);
      assert ReadJob(text) == Failure(loaded.error);
    }
  }

  /** A file with a line that does not parse fails on the first such line, with its piece count. */
  lemma ReadJobMalformed(text: string)
    ensures var ps := ParseLines(Lines(text));
      !AllEntries(ps) ==>
        && ReadJob(text).Failure?
        && var e := ReadJob(text).error;
        && e.MalformedLine? && e.index < |ps| && ps[e.index] == Malformed(e.pieces)
        && AllEntries(ps[..e.index])
  {
    var ps := ParseLines(Lines(text));
    if !AllEntries(ps) {
      var loaded := LoadConfig(text);
      assert loaded == Load(ps, map[], 0);
      LoadMalformed(ps);
      assert ReadJob(text) == Failure(loaded.error);
    }
  }

  /** Lines that do not all parse fail to load at the first that does not. */
  lemma LoadMalformed(ps: seq<ParsedLine>)
    requires !AllEntries(ps)
    ensures Load(ps, map[], 0).Failure?
    ensures var e := Load(ps, map[], 0).error;
      && e.MalformedLine? && e.index < |ps| && ps[e.index] == Malformed(e.pieces)
      && AllEntries(ps[..e.index])
  {
    LoadFailure(ps, map[], 0);
  }

  /**
   * `job` is the job the parsed lines `ps` describe: the main URL is the last
   * `main_url` line's value; the patterns are the comma-free pieces of the last
   * `external_link_patterns` line, or the one empty pattern without such a line;
   * the browser is used exactly when the last `use_playwright` line spells `true`;
   * the wait condition is the last `wait_selector` line's value, otherwise the last
   * `wait_function` line's, otherwise none.
   */
  ghost predicate JobOfLines(ps: seq<ParsedLine>, job: Job)
  {
    && AllEntries(ps)
    && HasKey(ps, "main_url")
    && (forall k :: 0 <= k < |job.patterns| ==> ',' !in job.patterns[k])
    && (forall i :: 0 <= i < |ps| && IsLastWithKey(ps, i) && ps[i].key == "main_url" ==>
          job.mainUrl == ps[i].value)
    && (forall i :: 0 <= i < |ps| && IsLastWithKey(ps, i) && ps[i].key == "external_link_patterns" ==>
          Join(job.patterns, ',') == ps[i].value)
    && (!HasKey(ps, "external_link_patterns") ==> job.patterns == [""])
    && (forall i :: 0 <= i < |ps| && IsLastWithKey(ps, i) && ps[i].key == "use_playwright" ==>
          (job.usePlaywright <==> SpellsTrue(ps[i].value)))
    && (!HasKey(ps, "use_playwright") ==> !job.usePlaywright)
    && (forall i :: 0 <= i < |ps| && IsLastWithKey(ps, i) && ps[i].key == "wait_selector" ==>
          job.wait == WaitForSelector(ps[i].value))
    && (forall i :: 0 <= i < |ps| && IsLastWithKey(ps, i) && ps[i].key == "wait_function" ==>
          HasKey(ps, "wait_selector") || job.wait == WaitForFunction(ps[i].value))
    && (!HasKey(ps, "wait_selector") && !HasKey(ps, "wait_function") ==> job.wait == NoWait)
  }

  /** The job interpreted from what a file's lines store is the job they describe; none without `main_url`. */
  lemma InterpretLines(ps: seq<ParsedLine>, m: map<string, string>)
    requires LoadedFrom(ps, m)
    ensures Interpret(m).Success? <==> HasKey(ps, "main_url")
    ensures Interpret(m).Success? ==> JobOfLines(ps, Interpret(m).value)
  {
    if !HasKey(ps, "external_link_patterns") {
      PatternsDefault(m);
    }
  }

  /** The job a file gives is the job its lines describe. */
  lemma ReadJobFields(text: string)
    ensures ReadJob(text).Success? ==> JobOfLines(ParseLines(Lines(text)), ReadJob(text).value)
  {
    if ReadJob(text).Success? {
      var ps := ParseLines(Lines(text));
      var m := LoadConfig(text).value;
      LoadConfigLoadedFrom(text);
      assert ReadJob(text) == Interpret(m);
      InterpretLines(ps, m);
    }
  }
}

=== FILE: crawl.dfy ===
/**
 * The crawl of one job: fetch the main page, save it, follow the external links
 * found on it (one hop only), save every page not already on disk, and pack the
 * pages saved in this run into the job's archive.
 *
 * The network is a parameter: `fetch` gives, for each request, either the page
 * (its markdown rendering and the `href`s of the anchors in its `<body>`) or
 * `None` for a request error, which the crawler catches. The files already in
 * the job's `txt` folder before the run are the parameter `pre`.
 */
module Crawl {
  import opened Wrappers
  import opened Text
  import opened Seqs
  import opened Paths
  import opened Links
  import opened Config
  import Url

  /** Milliseconds a browser waits for the job's wait condition. */
  const DefaultTimeoutMillis: nat := 30000

  /** One call of the fetcher: the URL and how the page is to be obtained. */
  datatype FetchRequest = FetchRequest(url: string, usePlaywright: bool, wait: WaitCondition, timeoutMillis: nat)

  /**
   * A fetched page: its markdown rendering and the `href` of every anchor in its
   * `<body>` in document order, `None` when the page has no `<body>`.
   */
  datatype Page = Page(markdown: string, body: Option<seq<string>>)

  /** The network: a page, or `None` for a request error. */
  type Fetcher = FetchRequest -> Option<Page>

  /** The request for a URL under a job's settings. */
  function Request(url: string, job: Job): (req: FetchRequest)
    ensures req.url == url && req.timeoutMillis == DefaultTimeoutMillis
    ensures req.usePlaywright == job.usePlaywright && req.wait == job.wait
  {
    FetchRequest(url, job.usePlaywright, job.wait, DefaultTimeoutMillis)
  }

  /** A fetched page has a `<body>`; without one, link extraction fails. */
  predicate BodyPresent(outcome: Option<Page>)
  {
    outcome.Some? ==> outcome.value.body.Some?
  }

  /** Every page the network can give has a `<body>`. */
  ghost predicate PagesHaveBody(fetch: Fetcher)
  {
    forall req :: BodyPresent(fetch(req))
  }

  /** The markdown of a fetch, empty when the request failed. */
  function Markdown(outcome: Option<Page>): string
  {
    if outcome.Some? then outcome.value.markdown else ""
  }

  /** The file a URL is saved under: the last path component of the URL plus `.md`. */
  function OutputName(url: string): (name: string)
    ensures 3 <= |name| <= |url| + 3 && name[|name| - 3..] == ".md"
    ensures '/' !in name && '/' !in name[..|name| - 3]
    ensures name[..|name| - 3] == url[|url| - (|name| - 3)..]
    ensures |name| - 3 == |url| || url[|url| - (|name| - 3) - 1] == '/'
  {
    var base := Basename(url);
    assert (base + ".md")[..|base|] == base;
    base + ".md"
  }

  /** A URL ending in `/` is saved as `.md`. */
  lemma TrailingSlashName(url: string)
    requires |url| > 0 && url[|url| - 1] == '/'
    ensures OutputName(url) == ".md"
  {
  }

  /** Where a saved page sits relative to the job's output folder. */
  function TextPath(name: string): (path: string)
    ensures '/' !in name ==> path == "txt/" + name
  {
    assert '/' !in name ==> PathJoin("txt", name) == "txt/" + name by {
      if '/' !in name && name != "" {
        assert name[0] in name;
        PathJoinPlain("txt", name);
      }
    }
    PathJoin("txt", name)
  }

  /**
   * One page: its markdown and the links on it that match a pattern, or no
   * markdown and no links when the request failed.
   */
  function ProcessWebsite(url: string, job: Job, fetch: Fetcher): (r: (Option<string>, seq<string>))
    requires BodyPresent(fetch(Request(url, job)))
    ensures r.0.None? <==> fetch(Request(url, job)).None?
    ensures r.0.None? ==> r.1 == []
    ensures Markdown(fetch(Request(url, job))) == (if r.0.Some? then r.0.value else "")
    ensures forall i :: 0 <= i < |r.1| ==> MatchesAny(r.1[i], job.patterns)
    ensures fetch(Request(url, job)).Some? ==>
      var hrefs := fetch(Request(url, job)).value.body.value;
      && IsSubsequence(r.1, ResolveAll(Url.BaseUrl(url), hrefs))
      && (forall x :: x in r.1 <==> MatchesAny(x, job.patterns) && ResolvesTo(Url.BaseUrl(url), hrefs, x))
      && forall x :: multiset(r.1)[x] ==
           if MatchesAny(x, job.patterns) then multiset(ResolveAll(Url.BaseUrl(url), hrefs))[x] else 0
  {
    match fetch(Request(url, job))
    case None => (None, [])
    case Some(page) =>
      var links := ExtractLinks(page.body.value, job.patterns, url);
      ExtractLinksSpec(page.body.value, job.patterns, url, "");
      forall x
        ensures x in links <==> MatchesAny(x, job.patterns) && ResolvesTo(Url.BaseUrl(url), page.body.value, x)
        ensures multiset(links)[x] ==
          if MatchesAny(x, job.patterns) then multiset(ResolveAll(Url.BaseUrl(url), page.body.value))[x] else 0
      {
        ExtractLinksSpec(page.body.value, job.patterns, url, x);
      }
      forall i | 0 <= i < |links|
        ensures MatchesAny(links[i], job.patterns)
      {
        assert links[i] in links;
      }
      (Some(page.markdown), links)
  }

  /** The links found on the main page. */
  function SeedLinks(job: Job, fetch: Fetcher): seq<string>
    requires PagesHaveBody(fetch)
  {
    assert BodyPresent(fetch(Request(job.mainUrl, job)));
    ProcessWebsite(job.mainUrl, job, fetch).1
  }

  /**
   * The state of a run: the requests made, in order; the names of the files
   * saved, in order (the archive's manifest); and what each saved file holds.
   */
  datatype Run = Run(fetched: seq<FetchRequest>, manifest: seq<string>, written: map<string, string>)

  /** The run that does nothing. */
  const Idle := Run([], [], map[])

  /**
   * The bookkeeping of a run agrees: every saved file is listed once, none of
   * them was on disk before, and none is empty.
   */
  ghost predicate Consistent(pre: set<string>, run: Run)
  {
    && NoDuplicates(run.manifest)
    && (forall n :: n in run.written <==> n in run.manifest)
    && (forall n :: n in run.written ==> n !in pre && run.written[n] != "")
  }

  /**
   * One URL: skipped when its file exists (on disk before the run or saved
   * earlier in it); otherwise requested, and saved when the markdown
   * `ProcessWebsite` gives for it is not empty. The links found on the page are
   * dropped; `PagesHaveBody` rules out the failure of their extraction.
   */
  function Visit(link: string, job: Job, fetch: Fetcher, pre: set<string>, run: Run): Run
    requires PagesHaveBody(fetch)
  {
    var name := OutputName(link);
    if name in pre || name in run.written then run
    else
      var content := Markdown(fetch(Request(link, job)));
      var fetched := run.fetched + [Request(link, job)];
      if content != "" then Run(fetched, run.manifest + [name], run.written[name := content])
      else Run(fetched, run.manifest, run.written)
  }

  /** The external links, visited in order. */
  function Follow(links: seq<string>, job: Job, fetch: Fetcher, pre: set<string>, run: Run): Run
    requires PagesHaveBody(fetch)
    decreases |links|
  {
    if |links| == 0 then run
    else Follow(links[1..], job, fetch, pre, Visit(links[0], job, fetch, pre, run))
  }

  /**
   * The crawl of a job, given the links found on the main page. The main page
   * is visited like a link: skipped when its file exists, otherwise requested
   * and saved when it has content. Only when it was saved are the links
   * followed.
   */
  function CrawlFrom(job: Job, links: seq<string>, pre: set<string>, fetch: Fetcher): Run
    requires PagesHaveBody(fetch)
  {
    var seeded := Visit(job.mainUrl, job, fetch, pre, Idle);
    if seeded.manifest == [] then seeded
    else Follow(links, job, fetch, pre, seeded)
  }

  /** The crawl of a job: the links followed are those found on the main page. */
  function RunJob(job: Job, pre: set<string>, fetch: Fetcher): Run
    requires PagesHaveBody(fetch)
  {
    CrawlFrom(job, SeedLinks(job, fetch), pre, fetch)
  }

  /** A crawl whose main page is saved visits the main page and then each of its links. */
  lemma SavedCrawl(job: Job, links: seq<string>, pre: set<string>, fetch: Fetcher)
    requires PagesHaveBody(fetch)
    requires Visit(job.mainUrl, job, fetch, pre, Idle).manifest != []
    ensures CrawlFrom(job, links, pre, fetch) == Follow(([job.mainUrl] + links), job, fetch, pre, Idle)
  {
    var all := ([job.mainUrl] + links);
    assert all[0] == job.mainUrl && all[1..] == links;
  }

  /** A crawl whose main page is not saved makes at most the main page's request and saves nothing. */
  lemma UnsavedCrawl(job: Job, links: seq<string>, pre: set<string>, fetch: Fetcher)
    requires PagesHaveBody(fetch)
    requires Visit(job.mainUrl, job, fetch, pre, Idle).manifest == []
    ensures var r := CrawlFrom(job, links, pre, fetch);
      && r.manifest == [] && r.written == map[]
      && (OutputName(job.mainUrl) in pre ==> r.fetched == [])
      && (OutputName(job.mainUrl) !in pre ==> r.fetched == [Request(job.mainUrl, job)])
  {
    VisitEffect(job.mainUrl, job, fetch, pre, Idle);
  }

  /**
   * How a crawl starts: with nothing done when the main page's file exists,
   * with the one request for the main page when that page fails or is empty,
   * and otherwise with that request and the main page saved first.
   */
  lemma CrawlStart(job: Job, links: seq<string>, pre: set<string>, fetch: Fetcher)
    requires PagesHaveBody(fetch)
    ensures var r := CrawlFrom(job, links, pre, fetch);
      var name := OutputName(job.mainUrl);
      var content := Markdown(fetch(Request(job.mainUrl, job)));
      && (name in pre ==> r == Idle)
      && (name !in pre && content == "" ==> r == Run([Request(job.mainUrl, job)], [], map[]))
      && (name !in pre && content != "" ==>
            && r.manifest != [] && r.manifest[0] == name
            && name in r.written && r.written[name] == content)
      && (r.fetched != [] ==> r.fetched[0] == Request(job.mainUrl, job))
  {
    var r := CrawlFrom(job, links, pre, fetch);
    var v := Visit(job.mainUrl, job, fetch, pre, Idle);
    VisitEffect(job.mainUrl, job, fetch, pre, Idle);
    if v.manifest != [] {
      var links := links;
      assert r == Follow(links, job, fetch, pre, v);
      assert v.fetched == Idle.fetched + [Request(job.mainUrl, job)] == [Request(job.mainUrl, job)];
      assert v.manifest == Idle.manifest + [OutputName(job.mainUrl)] == [OutputName(job.mainUrl)];
      FollowKeepsRequests(links, job, fetch, pre, v);
      FollowKeepsManifest(links, job, fetch, pre, v);
      FollowKeepsFiles(links, job, fetch, pre, v);
      assert r.fetched[0] == r.fetched[..1][0] && r.manifest[0] == r.manifest[..1][0];
    }
  }

  /**
   * The bookkeeping of every crawl is consistent: each saved file is listed
   * once in the manifest, was not on disk before, and is not empty.
   */
  lemma CrawlConsistent(job: Job, links: seq<string>, pre: set<string>, fetch: Fetcher)
    requires PagesHaveBody(fetch)
    ensures Consistent(pre, CrawlFrom(job, links, pre, fetch))
  {
    if Visit(job.mainUrl, job, fetch, pre, Idle).manifest != [] {
      SavedCrawl(job, links, pre, fetch);
      FollowConsistent(([job.mainUrl] + links), job, fetch, pre, Idle);
    } else {
      UnsavedCrawl(job, links, pre, fetch);
    }
  }

  /** The URLs of a list of requests. */
  function Urls(reqs: seq<FetchRequest>): (urls: seq<string>)
    ensures |urls| == |reqs|
    ensures forall i :: 0 <= i < |reqs| ==> urls[i] == reqs[i].url
  {
    if |reqs| == 0 then [] else [reqs[0].url] + Urls(reqs[1..])
  }

  /** The file names of a list of URLs. */
  function Names(urls: seq<string>): (names: seq<string>)
    ensures |names| == |urls|
    ensures forall i :: 0 <= i < |urls| ==> names[i] == OutputName(urls[i])
  {
    if |urls| == 0 then [] else [OutputName(urls[0])] + Names(urls[1..])
  }

  /** `content` is what the page at `link` gives, saved under `name`. */
  predicate Produces(link: string, name: string, content: string, job: Job, fetch: Fetcher)
  {
    OutputName(link) == name && Markdown(fetch(Request(link, job))) == content
  }

  /** One visit keeps the bookkeeping consistent. */
  lemma VisitConsistent(link: string, job: Job, fetch: Fetcher, pre: set<string>, run: Run)
    requires PagesHaveBody(fetch) && Consistent(pre, run)
    ensures Consistent(pre, Visit(link, job, fetch, pre, run))
  {
    var name := OutputName(link);
    var r := Visit(link, job, fetch, pre, run);
    VisitEffect(link, job, fetch, pre, run);
    if name !in pre && name !in run.written && Markdown(fetch(Request(link, job))) != "" {
      SavedConsistent(pre, run, name, Markdown(fetch(Request(link, job))), r);
    }
  }

  /** Saving a new, non-empty file not on disk before keeps the bookkeeping consistent. */
  lemma SavedConsistent(pre: set<string>, run: Run, name: string, content: string, r: Run)
    requires Consistent(pre, run) && name !in pre && name !in run.written && content != ""
    requires r.manifest == run.manifest + [name] && r.written == run.written[name := content]
    ensures Consistent(pre, r)
  {
    assert name !in run.manifest;
    forall i, j | 0 <= i < j < |r.manifest|
      ensures r.manifest[i] != r.manifest[j]
    {
      if j == |run.manifest| {
        assert r.manifest[i] == run.manifest[i];
      }
    }
    forall n
      ensures n in r.written <==> n in r.manifest
    {
      assert n in r.manifest <==> n in run.manifest || n == name;
    }
  }

  /**
   * What one visit does: nothing when the link's file exists; otherwise exactly
   * one request for the link, and the file saved when the page has content.
   */
  lemma VisitEffect(link: string, job: Job, fetch: Fetcher, pre: set<string>, run: Run)
    requires PagesHaveBody(fetch)
    ensures var r := Visit(link, job, fetch, pre, run);
      var name := OutputName(link);
      var content := Markdown(fetch(Request(link, job)));
      && (name in pre || name in run.written ==> r == run)
      && (name !in pre && name !in run.written ==> r.fetched == run.fetched + [Request(link, job)])
      && (name !in pre && name !in run.written && content == "" ==>
            r.manifest == run.manifest && r.written == run.written)
      && (name !in pre && name !in run.written && content != "" ==>
            r.manifest == run.manifest + [name] && r.written == run.written[name := content])
  {
  }

  /** Following links keeps the bookkeeping consistent. */
  lemma {:induction false} FollowConsistent(links: seq<string>, job: Job, fetch: Fetcher, pre: set<string>, run: Run)
    requires PagesHaveBody(fetch) && Consistent(pre, run)
    ensures Consistent(pre, Follow(links, job, fetch, pre, run))
    decreases |links|
  {
    if |links| > 0 {
      VisitConsistent(links[0], job, fetch, pre, run);
      FollowConsistent(links[1..], job, fetch, pre, Visit(links[0], job, fetch, pre, run));
    }
  }

  /** Following links keeps the requests made before. */
  lemma {:induction false} FollowKeepsRequests(links: seq<string>, job: Job, fetch: Fetcher, pre: set<string>, run: Run)
    requires PagesHaveBody(fetch)
    ensures IsPrefix(run.fetched, Follow(links, job, fetch, pre, run).fetched)
    decreases |links|
  {
    if |links| > 0 {
      var v := Visit(links[0], job, fetch, pre, run);
      VisitEffect(links[0], job, fetch, pre, run);
      assert IsPrefix(run.fetched, v.fetched);
      FollowKeepsRequests(links[1..], job, fetch, pre, v);
      PrefixTransitive(run.fetched, v.fetched, Follow(links, job, fetch, pre, run).fetched);
    }
  }

  /** Following links keeps the manifest entries made before. */
  lemma {:induction false} FollowKeepsManifest(links: seq<string>, job: Job, fetch: Fetcher, pre: set<string>, run: Run)
    requires PagesHaveBody(fetch)
    ensures IsPrefix(run.manifest, Follow(links, job, fetch, pre, run).manifest)
    decreases |links|
  {
    if |links| > 0 {
      var v := Visit(links[0], job, fetch, pre, run);
      VisitEffect(links[0], job, fetch, pre, run);
      assert IsPrefix(run.manifest, v.manifest);
      FollowKeepsManifest(links[1..], job, fetch, pre, v);
      PrefixTransitive(run.manifest, v.manifest, Follow(links, job, fetch, pre, run).manifest);
    }
  }

  /** Following links never overwrites or removes a saved file. */
  lemma {:induction false} FollowKeepsFiles(links: seq<string>, job: Job, fetch: Fetcher, pre: set<string>, run: Run)
    requires PagesHaveBody(fetch)
    ensures var r := Follow(links, job, fetch, pre, run);
      forall n :: n in run.written ==> n in r.written && r.written[n] == run.written[n]
    decreases |links|
  {
    if |links| > 0 {
      var v := Visit(links[0], job, fetch, pre, run);
      VisitKeepsFiles(links[0], job, fetch, pre, run);
      FollowKeepsFiles(links[1..], job, fetch, pre, v);
    }
  }

  /** A visit never overwrites or removes a saved file. */
  lemma VisitKeepsFiles(link: string, job: Job, fetch: Fetcher, pre: set<string>, run: Run)
    requires PagesHaveBody(fetch)
    ensures var v := Visit(link, job, fetch, pre, run);
      forall n :: n in run.written ==> n in v.written && v.written[n] == run.written[n]
  {
    VisitEffect(link, job, fetch, pre, run);
  }

  /** The URLs of a request followed by others. */
  lemma UrlsCons(req: FetchRequest, reqs: seq<FetchRequest>)
    ensures Urls([req] + reqs) == [req.url] + Urls(reqs)
  {
  }

  /** The requests made while following links are for links, in link order. */
  lemma {:induction false} FollowRequestOrder(links: seq<string>, job: Job, fetch: Fetcher, pre: set<string>, run: Run)
    requires PagesHaveBody(fetch)
    ensures var r := Follow(links, job, fetch, pre, run);
      |run.fetched| <= |r.fetched| && IsSubsequence(Urls(r.fetched[|run.fetched|..]), links)
    decreases |links|
  {
    var r := Follow(links, job, fetch, pre, run);
    if |links| == 0 {
      assert Urls(r.fetched[|run.fetched|..]) == [];
    } else {
      var v := Visit(links[0], job, fetch, pre, run);
      VisitEffect(links[0], job, fetch, pre, run);
      FollowRequestOrder(links[1..], job, fetch, pre, v);
      FollowKeepsRequests(links[1..], job, fetch, pre, v);
      var tail := Urls(r.fetched[|v.fetched|..]);
      if |v.fetched| == |run.fetched| {
        SubsequenceOfTail(tail, links);
      } else {
        SuffixAfterAppend(run.fetched, Request(links[0], job), r.fetched);
        UrlsCons(Request(links[0], job), r.fetched[|v.fetched|..]);
        SubsequenceCons(links[0], tail, links);
      }
    }
  }

  /**
   * Every request made while following links carries the job's strategy, wait
   * condition and timeout, and is for a file not on disk before the run.
   */
  lemma {:induction false} FollowRequestsAllowed(links: seq<string>, job: Job, fetch: Fetcher, pre: set<string>, run: Run)
    requires PagesHaveBody(fetch)
    ensures var r := Follow(links, job, fetch, pre, run);
      forall i :: |run.fetched| <= i < |r.fetched| ==>
        r.fetched[i] == Request(r.fetched[i].url, job) && OutputName(r.fetched[i].url) !in pre
    decreases |links|
  {
    if |links| > 0 {
      var v := Visit(links[0], job, fetch, pre, run);
      var r := Follow(links, job, fetch, pre, run);
      assert r == Follow(links[1..], job, fetch, pre, v);
      VisitRequestAllowed(links[0], job, fetch, pre, run);
      FollowRequestsAllowed(links[1..], job, fetch, pre, v);
      FollowKeepsRequests(links[1..], job, fetch, pre, v);
      forall i | |run.fetched| <= i < |v.fetched|
        ensures r.fetched[i] == v.fetched[i]
      {
        assert r.fetched[i] == r.fetched[..|v.fetched|][i];
      }
    }
  }

  /** The request a visit makes, if any, carries the job's settings and is for a file not on disk. */
  lemma VisitRequestAllowed(link: string, job: Job, fetch: Fetcher, pre: set<string>, run: Run)
    requires PagesHaveBody(fetch)
    ensures var v := Visit(link, job, fetch, pre, run);
      && |run.fetched| <= |v.fetched|
      && forall i :: |run.fetched| <= i < |v.fetched| ==>
           v.fetched[i] == Request(v.fetched[i].url, job) && OutputName(v.fetched[i].url) !in pre
  {
    VisitEffect(link, job, fetch, pre, run);
  }

  /** The files saved while following links are named after links, in link order. */
  lemma {:induction false} FollowManifest(links: seq<string>, job: Job, fetch: Fetcher, pre: set<string>, run: Run)
    requires PagesHaveBody(fetch)
    ensures var r := Follow(links, job, fetch, pre, run);
      && |run.manifest| <= |r.manifest|
      && IsSubsequence(r.manifest[|run.manifest|..], Names(links))
    decreases |links|
  {
    var r := Follow(links, job, fetch, pre, run);
    if |links| == 0 {
      assert r.manifest[|run.manifest|..] == [];
    } else {
      var v := Visit(links[0], job, fetch, pre, run);
      VisitEffect(links[0], job, fetch, pre, run);
      FollowManifest(links[1..], job, fetch, pre, v);
      FollowKeepsManifest(links[1..], job, fetch, pre, v);
      var tail := r.manifest[|v.manifest|..];
      assert Names(links)[1..] == Names(links[1..]);
      if |v.manifest| == |run.manifest| {
        SubsequenceOfTail(tail, Names(links));
      } else {
        SuffixAfterAppend(run.manifest, OutputName(links[0]), r.manifest);
        SubsequenceCons(OutputName(links[0]), tail, Names(links));
      }
    }
  }

  /**
   * No link is lost: every link whose file was not on disk before the run is
   * requested or has its file saved in the run, and saved whenever its page has
   * content.
   */
  lemma {:induction false} FollowComplete(links: seq<string>, job: Job, fetch: Fetcher, pre: set<string>, run: Run)
    requires PagesHaveBody(fetch)
    ensures var r := Follow(links, job, fetch, pre, run);
      forall l :: l in links && OutputName(l) !in pre ==>
        && (OutputName(l) in r.written || Request(l, job) in r.fetched)
        && (Markdown(fetch(Request(l, job))) != "" ==> OutputName(l) in r.written)
  {
    forall l | l in links && OutputName(l) !in pre
      ensures var r := Follow(links, job, fetch, pre, run);
        && (OutputName(l) in r.written || Request(l, job) in r.fetched)
        && (Markdown(fetch(Request(l, job))) != "" ==> OutputName(l) in r.written)
    {
      FollowCompleteAt(links, job, fetch, pre, run, l);
    }
  }

  /** One link of `FollowComplete`: by induction up to the position the link is visited. */
  lemma {:induction false} FollowCompleteAt(links: seq<string>, job: Job, fetch: Fetcher, pre: set<string>, run: Run, l: string)
    requires PagesHaveBody(fetch)
    requires l in links && OutputName(l) !in pre
    ensures var r := Follow(links, job, fetch, pre, run);
      && (OutputName(l) in r.written || Request(l, job) in r.fetched)
      && (Markdown(fetch(Request(l, job))) != "" ==> OutputName(l) in r.written)
    decreases |links|
  {
    if l != links[0] {
      var v := Visit(links[0], job, fetch, pre, run);
      assert Follow(links, job, fetch, pre, run) == Follow(links[1..], job, fetch, pre, v);
      assert l in links[1..];
      FollowCompleteAt(links[1..], job, fetch, pre, v, l);
    } else {
      FollowCompleteHead(links, job, fetch, pre, run);
    }
  }

  /** The first link of `FollowCompleteAt`: covered by its visit, and kept by the rest. */
  lemma FollowCompleteHead(links: seq<string>, job: Job, fetch: Fetcher, pre: set<string>, run: Run)
    requires PagesHaveBody(fetch)
    requires |links| > 0 && OutputName(links[0]) !in pre
    ensures var r := Follow(links, job, fetch, pre, run);
      && (OutputName(links[0]) in r.written || Request(links[0], job) in r.fetched)
      && (Markdown(fetch(Request(links[0], job))) != "" ==> OutputName(links[0]) in r.written)
  {
    var l := links[0];
    var v := Visit(l, job, fetch, pre, run);
    var r := Follow(links, job, fetch, pre, run);
    assert r == Follow(links[1..], job, fetch, pre, v);
    VisitCovers(l, job, fetch, pre, run);
    FollowKeepsRequests(links[1..], job, fetch, pre, v);
    FollowKeepsFiles(links[1..], job, fetch, pre, v);
    if Request(l, job) in v.fetched {
      var k :| 0 <= k < |v.fetched| && v.fetched[k] == Request(l, job);
      assert r.fetched[k] == Request(l, job);
    }
  }

  /** A visited link whose file was not on disk is requested or saved, and saved when it has content. */
  lemma VisitCovers(link: string, job: Job, fetch: Fetcher, pre: set<string>, run: Run)
    requires PagesHaveBody(fetch) && OutputName(link) !in pre
    ensures var v := Visit(link, job, fetch, pre, run);
      && (OutputName(link) in v.written || Request(link, job) in v.fetched)
      && (Markdown(fetch(Request(link, job))) != "" ==> OutputName(link) in v.written)
  {
    var v := Visit(link, job, fetch, pre, run);
    if OutputName(link) !in run.written {
      assert v.fetched[|run.fetched|] == Request(link, job);
    }
  }

  /** Every file saved while following links holds the content of a link's page, saved under that link's name. */
  lemma {:induction false} FollowSound(links: seq<string>, job: Job, fetch: Fetcher, pre: set<string>, run: Run)
    requires PagesHaveBody(fetch)
    ensures var r := Follow(links, job, fetch, pre, run);
      forall n :: n in r.written && n !in run.written ==>
        exists l :: l in links && Produces(l, n, r.written[n], job, fetch)
    decreases |links|
  {
    if |links| > 0 {
      var v := Visit(links[0], job, fetch, pre, run);
      var r := Follow(links, job, fetch, pre, run);
      VisitEffect(links[0], job, fetch, pre, run);
      FollowSound(links[1..], job, fetch, pre, v);
      FollowKeepsFiles(links[1..], job, fetch, pre, v);
      forall n | n in r.written && n !in run.written
        ensures exists l :: l in links && Produces(l, n, r.written[n], job, fetch)
      {
        if n in v.written {
          assert Produces(links[0], n, r.written[n], job, fetch);
        } else {
          var l :| l in links[1..] && Produces(l, n, r.written[n], job, fetch);
          assert l in links;
        }
      }
    }
  }

  /**
   * One hop only: the URLs requested are, in order, the main page and then some
   * of the links found on it; pages found on followed pages are never requested.
   * Every request carries the job's strategy, wait condition and the 30-second
   * timeout, and none is made for a file on disk before the run.
   */
  lemma CrawlFetches(job: Job, links: seq<string>, pre: set<string>, fetch: Fetcher)
    requires PagesHaveBody(fetch)
    ensures var r := CrawlFrom(job, links, pre, fetch);
      && IsSubsequence(Urls(r.fetched), ([job.mainUrl] + links))
      && forall i :: 0 <= i < |r.fetched| ==>
           r.fetched[i] == Request(r.fetched[i].url, job) && OutputName(r.fetched[i].url) !in pre
  {
    CrawlFetchOrder(job, links, pre, fetch);
    CrawlFetchesAllowed(job, links, pre, fetch);
  }

  /** The order half of `CrawlFetches`. */
  lemma CrawlFetchOrder(job: Job, links: seq<string>, pre: set<string>, fetch: Fetcher)
    requires PagesHaveBody(fetch)
    ensures IsSubsequence(Urls(CrawlFrom(job, links, pre, fetch).fetched), ([job.mainUrl] + links))
  {
    var r := CrawlFrom(job, links, pre, fetch);
    var all := ([job.mainUrl] + links);
    if Visit(job.mainUrl, job, fetch, pre, Idle).manifest != [] {
      SavedCrawl(job, links, pre, fetch);
      FollowRequestOrder(all, job, fetch, pre, Idle);
    } else {
      UnsavedCrawl(job, links, pre, fetch);
      if r.fetched != [] {
        assert Urls(r.fetched) == [job.mainUrl];
        SeedSubsequence(job.mainUrl, links);
      }
    }
  }

  /** A single URL is a subsequence of any list it heads. */
  lemma SeedSubsequence(x: string, links: seq<string>)
    ensures IsSubsequence([x], [x] + links)
  {
    assert ([x] + links)[1..] == links;
    SubsequenceCons(x, [], [x] + links);
  }

  /** The request half of `CrawlFetches`. */
  lemma CrawlFetchesAllowed(job: Job, links: seq<string>, pre: set<string>, fetch: Fetcher)
    requires PagesHaveBody(fetch)
    ensures var r := CrawlFrom(job, links, pre, fetch);
      forall i :: 0 <= i < |r.fetched| ==>
        r.fetched[i] == Request(r.fetched[i].url, job) && OutputName(r.fetched[i].url) !in pre
  {
    var r := CrawlFrom(job, links, pre, fetch);
    if Visit(job.mainUrl, job, fetch, pre, Idle).manifest != [] {
      SavedCrawl(job, links, pre, fetch);
      FollowRequestsAllowed(([job.mainUrl] + links), job, fetch, pre, Idle);
      assert r.fetched[|Idle.fetched|..] == r.fetched;
    } else {
      UnsavedCrawl(job, links, pre, fetch);
    }
  }

  /**
   * No page is requested twice under one file name unless the earlier request
   * gave nothing to save: a request that gave content has its file saved, and a
   * saved file is never requested again in the run.
   */
  ghost predicate NoRefetch(fetch: Fetcher, run: Run)
  {
    && (forall j :: 0 <= j < |run.fetched| && Markdown(fetch(run.fetched[j])) != "" ==>
          OutputName(run.fetched[j].url) in run.written)
    && (forall i, j :: 0 <= j < i < |run.fetched| && OutputName(run.fetched[i].url) == OutputName(run.fetched[j].url) ==>
          Markdown(fetch(run.fetched[j])) == "")
  }

  /** A visit requests a link only when its file is not saved, so it keeps `NoRefetch`. */
  lemma VisitNoRefetch(link: string, job: Job, fetch: Fetcher, pre: set<string>, run: Run)
    requires PagesHaveBody(fetch) && NoRefetch(fetch, run)
    ensures NoRefetch(fetch, Visit(link, job, fetch, pre, run))
  {
    var name := OutputName(link);
    var r := Visit(link, job, fetch, pre, run);
    VisitEffect(link, job, fetch, pre, run);
    if name !in pre && name !in run.written {
      VisitKeepsFiles(link, job, fetch, pre, run);
      AppendNoRefetch(fetch, run, Request(link, job), r);
    }
  }

  /**
   * A request for a file not saved yet, after which that file is saved if the
   * request gave content and no saved file is lost, keeps `NoRefetch`.
   */
  lemma AppendNoRefetch(fetch: Fetcher, run: Run, req: FetchRequest, r: Run)
    requires NoRefetch(fetch, run)
    requires r.fetched == run.fetched + [req] && OutputName(req.url) !in run.written
    requires Markdown(fetch(req)) != "" ==> OutputName(req.url) in r.written
    requires forall n :: n in run.written ==> n in r.written
    ensures NoRefetch(fetch, r)
  {
    forall j | 0 <= j < |r.fetched| && Markdown(fetch(r.fetched[j])) != ""
      ensures OutputName(r.fetched[j].url) in r.written
    {
      if j < |run.fetched| {
        assert r.fetched[j] == run.fetched[j];
      }
    }
    forall i, j | 0 <= j < i < |r.fetched| && OutputName(r.fetched[i].url) == OutputName(r.fetched[j].url)
      ensures Markdown(fetch(r.fetched[j])) == ""
    {
      assert r.fetched[j] == run.fetched[j];
      if i < |run.fetched| {
        assert r.fetched[i] == run.fetched[i];
      }
    }
  }

  /** Following links keeps `NoRefetch`. */
  lemma {:induction false} FollowNoRefetch(links: seq<string>, job: Job, fetch: Fetcher, pre: set<string>, run: Run)
    requires PagesHaveBody(fetch) && NoRefetch(fetch, run)
    ensures NoRefetch(fetch, Follow(links, job, fetch, pre, run))
    decreases |links|
  {
    if |links| > 0 {
      VisitNoRefetch(links[0], job, fetch, pre, run);
      FollowNoRefetch(links[1..], job, fetch, pre, Visit(links[0], job, fetch, pre, run));
    }
  }

  /**
   * A link whose file was saved earlier in the run is skipped: two requests of a
   * crawl for the same file name can only happen when the earlier one gave no
   * content, so nothing saved is ever fetched again or overwritten.
   */
  lemma CrawlNoRefetch(job: Job, links: seq<string>, pre: set<string>, fetch: Fetcher)
    requires PagesHaveBody(fetch)
    ensures var r := CrawlFrom(job, links, pre, fetch);
      forall i, j :: 0 <= j < i < |r.fetched| && OutputName(r.fetched[i].url) == OutputName(r.fetched[j].url) ==>
        Markdown(fetch(r.fetched[j])) == ""
  {
    if Visit(job.mainUrl, job, fetch, pre, Idle).manifest != [] {
      SavedCrawl(job, links, pre, fetch);
      FollowNoRefetch(([job.mainUrl] + links), job, fetch, pre, Idle);
    } else {
      UnsavedCrawl(job, links, pre, fetch);
    }
  }

  /**
   * The manifest names each file once, the main page's first, then files of the
   * main page's links in link order.
   */
  lemma CrawlManifest(job: Job, links: seq<string>, pre: set<string>, fetch: Fetcher)
    requires PagesHaveBody(fetch)
    ensures var r := CrawlFrom(job, links, pre, fetch);
      NoDuplicates(r.manifest) && IsSubsequence(r.manifest, Names(([job.mainUrl] + links)))
  {
    CrawlConsistent(job, links, pre, fetch);
    if Visit(job.mainUrl, job, fetch, pre, Idle).manifest != [] {
      var r := CrawlFrom(job, links, pre, fetch);
      SavedCrawl(job, links, pre, fetch);
      FollowManifest(([job.mainUrl] + links), job, fetch, pre, Idle);
      assert r.manifest[|Idle.manifest|..] == r.manifest;
    } else {
      UnsavedCrawl(job, links, pre, fetch);
    }
  }

  /**
   * Once the main page is saved, no link is lost: each URL of the frontier
   * whose file was not on disk is requested or has its file saved, and is
   * saved whenever its page has content.
   */
  lemma CrawlComplete(job: Job, links: seq<string>, pre: set<string>, fetch: Fetcher)
    requires PagesHaveBody(fetch)
    ensures var r := CrawlFrom(job, links, pre, fetch);
      r.manifest != [] ==>
        forall l :: l in ([job.mainUrl] + links) && OutputName(l) !in pre ==>
          && (OutputName(l) in r.written || Request(l, job) in r.fetched)
          && (Markdown(fetch(Request(l, job))) != "" ==> OutputName(l) in r.written)
  {
    if Visit(job.mainUrl, job, fetch, pre, Idle).manifest != [] {
      SavedCrawl(job, links, pre, fetch);
      FollowComplete(([job.mainUrl] + links), job, fetch, pre, Idle);
    } else {
      UnsavedCrawl(job, links, pre, fetch);
    }
  }

  /** Every saved file holds what the main page or one of its links gave, under that URL's name. */
  lemma CrawlSound(job: Job, links: seq<string>, pre: set<string>, fetch: Fetcher)
    requires PagesHaveBody(fetch)
    ensures var r := CrawlFrom(job, links, pre, fetch);
      forall n :: n in r.written ==>
        exists l :: l in ([job.mainUrl] + links) && Produces(l, n, r.written[n], job, fetch)
  {
    if Visit(job.mainUrl, job, fetch, pre, Idle).manifest != [] {
      SavedCrawl(job, links, pre, fetch);
      FollowSound(([job.mainUrl] + links), job, fetch, pre, Idle);
    } else {
      UnsavedCrawl(job, links, pre, fetch);
    }
  }

  /**
   * A second run over the files of the first, with any links and any responses:
   * when the first saved something it saved the main page, so the second requests
   * nothing; when the first saved nothing the second runs as if it were the first,
   * and with the same main page it repeats the first exactly.
   */
  lemma RerunSavesNothing(job: Job, links: seq<string>, pre: set<string>, fetch: Fetcher,
                          links2: seq<string>, fetch2: Fetcher)
    requires PagesHaveBody(fetch) && PagesHaveBody(fetch2)
    ensures var first := CrawlFrom(job, links, pre, fetch);
      var again := CrawlFrom(job, links2, pre + first.written.Keys, fetch2);
      && (first.manifest != [] ==> again == Idle)
      && (first.manifest == [] ==> again == CrawlFrom(job, links2, pre, fetch2))
      && (first.manifest == [] &&
          Markdown(fetch2(Request(job.mainUrl, job))) == Markdown(fetch(Request(job.mainUrl, job))) ==>
            again == first && again.written == map[] && |again.fetched| <= 1)
  {
    if CrawlFrom(job, links, pre, fetch).manifest != [] {
      RerunAfterSave(job, links, pre, fetch, links2, fetch2);
    } else {
      RerunAfterNothing(job, links, pre, fetch, links2, fetch2);
    }
  }

  /** A run that saved something saved the main page, so the next run skips it. */
  lemma RerunAfterSave(job: Job, links: seq<string>, pre: set<string>, fetch: Fetcher,
                       links2: seq<string>, fetch2: Fetcher)
    requires PagesHaveBody(fetch) && PagesHaveBody(fetch2)
    requires CrawlFrom(job, links, pre, fetch).manifest != []
    ensures CrawlFrom(job, links2, pre + CrawlFrom(job, links, pre, fetch).written.Keys, fetch2) == Idle
  {
    var first := CrawlFrom(job, links, pre, fetch);
    CrawlStart(job, links, pre, fetch);
    assert OutputName(job.mainUrl) in pre + first.written.Keys;
    CrawlStart(job, links2, pre + first.written.Keys, fetch2);
  }

  /**
   * A run that saved nothing leaves the disk as it was, and with the same main
   * page the next run repeats it.
   */
  lemma RerunAfterNothing(job: Job, links: seq<string>, pre: set<string>, fetch: Fetcher,
                          links2: seq<string>, fetch2: Fetcher)
    requires PagesHaveBody(fetch) && PagesHaveBody(fetch2)
    requires CrawlFrom(job, links, pre, fetch).manifest == []
    ensures var first := CrawlFrom(job, links, pre, fetch);
      pre + first.written.Keys == pre && first.written == map[] && |first.fetched| <= 1
    ensures Markdown(fetch2(Request(job.mainUrl, job))) == Markdown(fetch(Request(job.mainUrl, job))) ==>
      CrawlFrom(job, links2, pre, fetch2) == CrawlFrom(job, links, pre, fetch)
  {
    var first := CrawlFrom(job, links, pre, fetch);
    CrawlStart(job, links, pre, fetch);
    CrawlStart(job, links2, pre, fetch2);
    assert first.written == map[];
    assert pre + first.written.Keys == pre;
  }

  /** The archive's entries: each saved file under its `txt/` path, in manifest order. */
  function Archive(run: Run): (entries: seq<(string, string)>)
    requires forall n :: n in run.manifest ==> n in run.written
    ensures |entries| == |run.manifest|
    ensures forall i :: 0 <= i < |entries| ==>
      entries[i] == (TextPath(run.manifest[i]), run.written[run.manifest[i]])
    decreases |run.manifest|
  {
    if |run.manifest| == 0 then []
    else
      [(TextPath(run.manifest[0]), run.written[run.manifest[0]])]
      + Archive(run.(manifest := run.manifest[1..]))
  }

  /** The archive of a job: `<base>_resources.zip` in the job's output folder `out/<base>`. */
  function ArchivePath(jobName: string): (path: string)
    ensures var base := JobBaseName(jobName);
      base != "" && base[0] != '/' && base[|base| - 1] != '/' ==>
        path == "out/" + base + "/" + base + "_resources.zip"
  {
    ZipPath(JobBaseName(jobName))
  }

  /** The usual job file `<name>.txt` is archived as `out/<name>/<name>_resources.zip`. */
  lemma ArchivePathOfTxt(name: string)
    requires name != "" && '.' !in name && '/' !in name
    ensures ArchivePath(name + ".txt") == "out/" + name + "/" + name + "_resources.zip"
  {
    JobBaseNameOfTxt(name);
    assert name[0] in name && name[|name| - 1] in name;
  }

  /** The archive's path for a job's base name. */
  function ZipPath(base: string): (path: string)
    ensures base != "" && base[0] != '/' && base[|base| - 1] != '/' ==>
      path == "out/" + base + "/" + base + "_resources.zip"
  {
    var folder := PathJoin("out", base);
    assert base != "" && base[0] != '/' && base[|base| - 1] != '/' ==>
      PathJoin(folder, base + "_resources.zip") == "out/" + base + "/" + base + "_resources.zip" by {
      if base != "" && base[0] != '/' && base[|base| - 1] != '/' {
        PathJoinPlain("out", base);
        PathJoinPlain(folder, base + "_resources.zip");
      }
    }
    PathJoin(folder, base + "_resources.zip")
  }

  /** What a crawl leaves behind: the archive's path and entries, and the requests made. */
  datatype Outcome = Outcome(archivePath: string, entries: seq<(string, string)>, fetched: seq<FetchRequest>)

  /**
   * The whole program for one job file: read the job, crawl, and write the
   * archive, which is written (possibly empty) whenever the job can be read.
   */
  function CrawlJob(jobName: string, text: string, pre: set<string>, fetch: Fetcher): (r: Result<Outcome, ConfigError>)
    requires PagesHaveBody(fetch)
    ensures r.Failure? <==> ReadJob(text).Failure?
    ensures r.Failure? ==> r.error == ReadJob(text).error
  {
    match ReadJob(text)
    case Failure(e) => Failure(e)
    case Success(job) => Success(Finish(jobName, job, pre, fetch))
  }

  /** Crawl a job that was read, then write its archive. */
  function Finish(jobName: string, job: Job, pre: set<string>, fetch: Fetcher): Outcome
    requires PagesHaveBody(fetch)
  {
    var run := RunJob(job, pre, fetch);
    CrawlConsistent(job, SeedLinks(job, fetch), pre, fetch);
    Outcome(ArchivePath(jobName), Archive(run), run.fetched)
  }

  /**
   * The archive of consistent bookkeeping holds each saved file once, under its
   * own `txt/` path, with its non-empty content.
   */
  lemma ArchiveOfConsistent(pre: set<string>, run: Run)
    requires Consistent(pre, run)
    requires forall n :: n in run.written ==> '/' !in n
    ensures var entries := Archive(run);
      && |entries| == |run.written|
      && (forall i, j :: 0 <= i < j < |entries| ==> entries[i].0 != entries[j].0)
      && (forall i :: 0 <= i < |entries| ==>
            && run.manifest[i] in run.written
            && entries[i] == ("txt/" + run.manifest[i], run.written[run.manifest[i]])
            && entries[i].1 != "")
  {
    ManifestCount(run.manifest, run.written);
    ArchivePathsDistinct(run);
    var entries := Archive(run);
    forall i | 0 <= i < |entries|
      ensures run.manifest[i] in run.written && entries[i].1 != ""
    {
      assert run.manifest[i] in run.manifest;
    }
  }

  /** Distinct plain names listed in the manifest give distinct archive paths. */
  lemma ArchivePathsDistinct(run: Run)
    requires NoDuplicates(run.manifest)
    requires forall n :: n in run.manifest ==> n in run.written && '/' !in n
    ensures var entries := Archive(run);
      forall i, j :: 0 <= i < j < |entries| ==> entries[i].0 != entries[j].0
  {
    var entries := Archive(run);
    forall i, j | 0 <= i < j < |entries|
      ensures entries[i].0 != entries[j].0
    {
      assert run.manifest[i] in run.manifest && run.manifest[j] in run.manifest;
      TextPathInjective(run.manifest[i], run.manifest[j]);
    }
  }

  /**
   * The archive of a crawl holds each file saved in the run exactly once, under
   * its own `txt/` path, with the content of the page it was saved from. It is
   * empty exactly when the main page was not saved, and otherwise starts with
   * the main page.
   */
  lemma CrawlArchive(job: Job, links: seq<string>, pre: set<string>, fetch: Fetcher)
    requires PagesHaveBody(fetch)
    ensures var r := CrawlFrom(job, links, pre, fetch);
      && (forall n :: n in r.manifest ==> n in r.written)
      && var entries := Archive(r);
      var seed := OutputName(job.mainUrl);
      var content := Markdown(fetch(Request(job.mainUrl, job)));
      && |entries| == |r.written|
      && (forall i, j :: 0 <= i < j < |entries| ==> entries[i].0 != entries[j].0)
      && (forall i :: 0 <= i < |entries| ==>
            && entries[i].1 != ""
            && exists l ::
                 && l in [job.mainUrl] + links
                 && entries[i].0 == "txt/" + OutputName(l)
                 && Produces(l, OutputName(l), entries[i].1, job, fetch))
      && (|entries| == 0 <==> seed in pre || content == "")
      && (|entries| > 0 ==> entries[0] == ("txt/" + seed, content))
  {
    CrawlArchiveEntries(job, links, pre, fetch);
    CrawlArchiveSources(job, links, pre, fetch);
    CrawlArchiveStart(job, links, pre, fetch);
  }

  /** Every name a crawl saves is a plain file name. */
  lemma CrawlNamesPlain(job: Job, links: seq<string>, pre: set<string>, fetch: Fetcher)
    requires PagesHaveBody(fetch)
    ensures var r := CrawlFrom(job, links, pre, fetch);
      forall n :: n in r.written ==> '/' !in n
  {
    var r := CrawlFrom(job, links, pre, fetch);
    CrawlSound(job, links, pre, fetch);
    forall n | n in r.written
      ensures '/' !in n
    {
      var l :| l in [job.mainUrl] + links && Produces(l, n, r.written[n], job, fetch);
    }
  }

  /** The entry count and distinct paths of `CrawlArchive`. */
  lemma CrawlArchiveEntries(job: Job, links: seq<string>, pre: set<string>, fetch: Fetcher)
    requires PagesHaveBody(fetch)
    ensures var r := CrawlFrom(job, links, pre, fetch);
      && (forall n :: n in r.manifest ==> n in r.written)
      && var entries := Archive(r);
      && |entries| == |r.written|
      && (forall i, j :: 0 <= i < j < |entries| ==> entries[i].0 != entries[j].0)
      && (forall i :: 0 <= i < |entries| ==>
            && r.manifest[i] in r.written
            && entries[i] == ("txt/" + r.manifest[i], r.written[r.manifest[i]])
            && entries[i].1 != "")
  {
    CrawlConsistent(job, links, pre, fetch);
    CrawlNamesPlain(job, links, pre, fetch);
    ArchiveOfConsistent(pre, CrawlFrom(job, links, pre, fetch));
  }

  /** The sources of `CrawlArchive`: every entry comes from a page of the main page or its links. */
  lemma CrawlArchiveSources(job: Job, links: seq<string>, pre: set<string>, fetch: Fetcher)
    requires PagesHaveBody(fetch)
    ensures var r := CrawlFrom(job, links, pre, fetch);
      && (forall n :: n in r.manifest ==> n in r.written)
      && var entries := Archive(r);
      forall i :: 0 <= i < |entries| ==>
        exists l ::
          && l in [job.mainUrl] + links
          && entries[i].0 == "txt/" + OutputName(l)
          && Produces(l, OutputName(l), entries[i].1, job, fetch)
  {
    var r := CrawlFrom(job, links, pre, fetch);
    CrawlArchiveEntries(job, links, pre, fetch);
    CrawlSound(job, links, pre, fetch);
    var entries := Archive(r);
    forall i | 0 <= i < |entries|
      ensures exists l ::
        && l in [job.mainUrl] + links
        && entries[i].0 == "txt/" + OutputName(l)
        && Produces(l, OutputName(l), entries[i].1, job, fetch)
    {
      var n := r.manifest[i];
      var l :| l in [job.mainUrl] + links && Produces(l, n, r.written[n], job, fetch);
    }
  }

  /** The start of `CrawlArchive`: empty unless the main page was saved, which then comes first. */
  lemma CrawlArchiveStart(job: Job, links: seq<string>, pre: set<string>, fetch: Fetcher)
    requires PagesHaveBody(fetch)
    ensures var r := CrawlFrom(job, links, pre, fetch);
      && (forall n :: n in r.manifest ==> n in r.written)
      && var entries := Archive(r);
      var seed := OutputName(job.mainUrl);
      var content := Markdown(fetch(Request(job.mainUrl, job)));
      && (|entries| == 0 <==> seed in pre || content == "")
      && (|entries| > 0 ==> entries[0] == ("txt/" + seed, content))
  {
    CrawlArchiveEntries(job, links, pre, fetch);
    CrawlStart(job, links, pre, fetch);
  }

  /** Distinct file names have distinct paths in the archive. */
  lemma TextPathInjective(a: string, b: string)
    requires a != b && '/' !in a && '/' !in b
    ensures TextPath(a) != TextPath(b)
  {
    assert TextPath(a)[4..] == a && TextPath(b)[4..] == b;
  }

  /** A duplicate-free manifest listing exactly the saved files has one entry per file. */
  lemma ManifestCount(manifest: seq<string>, written: map<string, string>)
    requires NoDuplicates(manifest)
    requires forall n :: n in written <==> n in manifest
    ensures |manifest| == |written|
  {
    assert written.Keys == set n | n in manifest;
    DistinctCardinality(manifest);
  }

  /**
   * The links followed are, in document order, the resolved anchors of the main
   * page that match a pattern, and all of them; none when the main page could
   * not be fetched.
   */
  lemma SeedLinksSpec(job: Job, fetch: Fetcher)
    requires PagesHaveBody(fetch)
    ensures var page := fetch(Request(job.mainUrl, job));
      && (page.None? ==> SeedLinks(job, fetch) == [])
      && (page.Some? ==>
            && IsSubsequence(SeedLinks(job, fetch), ResolveAll(Url.BaseUrl(job.mainUrl), page.value.body.value))
            && (forall x :: x in SeedLinks(job, fetch) <==>
                 MatchesAny(x, job.patterns) && ResolvesTo(Url.BaseUrl(job.mainUrl), page.value.body.value, x))
            && forall x :: multiset(SeedLinks(job, fetch))[x] ==
                 if MatchesAny(x, job.patterns)
                 then multiset(ResolveAll(Url.BaseUrl(job.mainUrl), page.value.body.value))[x]
                 else 0)
  {
    assert BodyPresent(fetch(Request(job.mainUrl, job)));
  }

  /**
   * The requests of a job that could be read: the main page, then some of the
   * links found on it in order, each with the job's settings and none for a
   * file on disk before the run.
   */
  lemma CrawlJobFetches(jobName: string, text: string, pre: set<string>, fetch: Fetcher)
    requires PagesHaveBody(fetch)
    ensures ReadJob(text).Success? ==>
      var job := ReadJob(text).value;
      var o := CrawlJob(jobName, text, pre, fetch).value;
      && IsSubsequence(Urls(o.fetched), [job.mainUrl] + SeedLinks(job, fetch))
      && forall i :: 0 <= i < |o.fetched| ==>
           o.fetched[i] == Request(o.fetched[i].url, job) && OutputName(o.fetched[i].url) !in pre
  {
    if ReadJob(text).Success? {
      var job := ReadJob(text).value;
      var links := SeedLinks(job, fetch);
      var r := CrawlFrom(job, links, pre, fetch);
      CrawlFetches(job, links, pre, fetch);
      var o := CrawlJob(jobName, text, pre, fetch).value;
      assert o.fetched == r.fetched;
    }
  }

  /**
   * The archive of a job that could be read: `out/<base>/<base>_resources.zip`,
   * holding each file saved in the run once, under distinct `txt/` paths, each
   * with the non-empty content of the main page or of one of its links.
   */
  lemma CrawlJobArchive(jobName: string, text: string, pre: set<string>, fetch: Fetcher)
    requires PagesHaveBody(fetch)
    ensures ReadJob(text).Success? ==>
      var job := ReadJob(text).value;
      var o := CrawlJob(jobName, text, pre, fetch).value;
      && o.archivePath == ArchivePath(jobName)
      && (forall i, j :: 0 <= i < j < |o.entries| ==> o.entries[i].0 != o.entries[j].0)
      && (forall i :: 0 <= i < |o.entries| ==> o.entries[i].1 != "" && EntryFrom(o.entries[i], job, SeedLinks(job, fetch), fetch))
  {
    if ReadJob(text).Success? {
      var job := ReadJob(text).value;
      assert CrawlJob(jobName, text, pre, fetch).value == Finish(jobName, job, pre, fetch);
      FinishArchive(jobName, job, pre, fetch);
    }
  }

  /** An archive entry holds what the main page or one of the links gave, under that URL's `txt/` path. */
  ghost predicate EntryFrom(entry: (string, string), job: Job, links: seq<string>, fetch: Fetcher)
  {
    exists l ::
      && l in [job.mainUrl] + links
      && entry.0 == "txt/" + OutputName(l)
      && Produces(l, OutputName(l), entry.1, job, fetch)
  }

  /** `CrawlJobArchive` for a job already read. */
  lemma FinishArchive(jobName: string, job: Job, pre: set<string>, fetch: Fetcher)
    requires PagesHaveBody(fetch)
    ensures var o := Finish(jobName, job, pre, fetch);
      && o.archivePath == ArchivePath(jobName)
      && (forall i, j :: 0 <= i < j < |o.entries| ==> o.entries[i].0 != o.entries[j].0)
      && (forall i :: 0 <= i < |o.entries| ==> o.entries[i].1 != "" && EntryFrom(o.entries[i], job, SeedLinks(job, fetch), fetch))
  {
    var links := SeedLinks(job, fetch);
    var r := CrawlFrom(job, links, pre, fetch);
    CrawlArchive(job, links, pre, fetch);
    var o := Finish(jobName, job, pre, fetch);
    assert o.entries == Archive(r);
    forall i | 0 <= i < |o.entries|
      ensures EntryFrom(o.entries[i], job, links, fetch)
    {
    }
  }
}

=== FILE: jobfile.dfy ===
/**
 * Writing a job file from the answers to the job-creation prompts
 * (`create_job_config`), and what reading it back with `load_config` gives.
 */
module JobFile {
  import opened Wrappers
  import opened Text
  import opened Config

  /** The answers to the prompts; `use_playwright` is picked from `True` / `False`. */
  datatype Answers = Answers(
    mainUrl: string,
    patterns: string,
    usePlaywright: bool,
    waitSelector: string,
    waitFunction: string)

  /** The choice text written for the browser question. */
  function PlaywrightChoice(usePlaywright: bool): string
  {
    if usePlaywright then "True" else "False"
  }

  /** One `key=value` line with its line feed, as each f-string of `create_job_config` builds it. */
  function Line(key: string, value: string): string
  {
    key + "=" + value + "\n"
  }

  /** The job-file text `create_job_config` writes. */
  function ConfigText(a: Answers): string
  {
    var text :=
      Line("main_url", a.mainUrl) +
      Line("external_link_patterns", a.patterns) +
      Line("use_playwright", PlaywrightChoice(a.usePlaywright));
    var text := if a.waitSelector != "" then text + Line("wait_selector", a.waitSelector) else text;
    if a.waitFunction != "" then text + Line("wait_function", a.waitFunction) else text
  }

  /** The settings written, in file order. */
  function WrittenSettings(a: Answers): seq<(string, string)>
  {
    [("main_url", a.mainUrl), ("external_link_patterns", a.patterns), ("use_playwright", PlaywrightChoice(a.usePlaywright))]
    + (if a.waitSelector != "" then [("wait_selector", a.waitSelector)] else [])
    + (if a.waitFunction != "" then [("wait_function", a.waitFunction)] else [])
  }

  /**
   * Always the URL, the patterns and the browser choice, in that order; then a
   * selector line exactly when a selector was given and a function line exactly
   * when a function was given (both may be written). No key is written twice.
   */
  lemma {:induction false} WrittenSettingsShape(a: Answers)
    ensures var s := WrittenSettings(a);
      && 3 <= |s| <= 5
      && s[0] == ("main_url", a.mainUrl)
      && s[1] == ("external_link_patterns", a.patterns)
      && s[2] == ("use_playwright", PlaywrightChoice(a.usePlaywright))
      && (("wait_selector", a.waitSelector) in s <==> a.waitSelector != "")
      && (("wait_function", a.waitFunction) in s <==> a.waitFunction != "")
      && (forall i :: 3 <= i < |s| ==> s[i] == ("wait_selector", a.waitSelector) || s[i] == ("wait_function", a.waitFunction))
      && (forall i, j :: 0 <= i < j < |s| ==> s[i].0 != s[j].0)
  {
  }

  /** Key names: non-empty, lower-case letters and underscores only. */
  predicate IsKeyName(k: string)
  {
    |k| > 0 && forall i :: 0 <= i < |k| ==> 'a' <= k[i] <= 'z' || k[i] == '_'
  }

  /** A key name has no `=`, no line break and no leading whitespace. */
  lemma {:induction false} KeyNameFacts(k: string)
    requires IsKeyName(k)
    ensures !IsSpace(k[0]) && '=' !in k && '\n' !in k && '\r' !in k
  {
  }

  /** Every written key is a key name. */
  lemma {:induction false} WrittenKeys(a: Answers)
    ensures forall i :: 0 <= i < |WrittenSettings(a)| ==> IsKeyName(WrittenSettings(a)[i].0)
  {
    KeyLiterals();
  }

  /** The five keys the job file uses are key names. */
  lemma KeyLiterals()
    ensures IsKeyName("main_url") && IsKeyName("external_link_patterns") && IsKeyName("use_playwright")
    ensures IsKeyName("wait_selector") && IsKeyName("wait_function")
  {
  }

  /** One `key=value` line. */
  function Render(setting: (string, string)): string
  {
    setting.0 + "=" + setting.1
  }

  /** Every setting rendered as a line. */
  function RenderAll(settings: seq<(string, string)>): (lines: seq<string>)
    ensures |lines| == |settings|
    ensures forall i :: 0 <= i < |settings| ==> lines[i] == Render(settings[i])
  {
    if |settings| == 0 then [] else [Render(settings[0])] + RenderAll(settings[1..])
  }

  /** The lines of a list of settings, one after another. */
  function SettingsText(settings: seq<(string, string)>): string
  {
    if |settings| == 0 then "" else Line(settings[0].0, settings[0].1) + SettingsText(settings[1..])
  }

  /** The text of a concatenation of settings is the concatenation of their texts. */
  lemma {:induction false} SettingsTextAppend(xs: seq<(string, string)>, ys: seq<(string, string)>)
    ensures SettingsText(xs + ys) == SettingsText(xs) + SettingsText(ys)
    decreases |xs|
  {
    if |xs| == 0 {
      assert xs + ys == ys;
    } else {
      assert (xs + ys)[0] == xs[0];
      assert (xs + ys)[1..] == xs[1..] + ys;
      SettingsTextAppend(xs[1..], ys);
    }
  }

  /** The text of the settings is their rendered lines, each followed by `\n`. */
  lemma {:induction false} SettingsTextAsUnlines(settings: seq<(string, string)>)
    ensures SettingsText(settings) == Unlines(RenderAll(settings))
    decreases |settings|
  {
    if |settings| > 0 {
      SettingsTextAsUnlines(settings[1..]);
      assert RenderAll(settings)[1..] == RenderAll(settings[1..]);
    }
  }

  /** The text of three settings. */
  lemma {:induction false} SettingsTextThree(x: (string, string), y: (string, string), z: (string, string))
    ensures SettingsText([x, y, z]) == Line(x.0, x.1) + Line(y.0, y.1) + Line(z.0, z.1)
  {
    assert [x, y, z][1..] == [y, z];
    assert [y, z][1..] == [z];
    assert [z][1..] == [];
    assert SettingsText([z]) == Line(z.0, z.1) + "";
  }

  /** The text of no setting or of at most one optional setting. */
  lemma {:induction false} SettingsTextOptional(xs: seq<(string, string)>, key: string, value: string)
    requires xs == [] || xs == [(key, value)]
    ensures SettingsText(xs) == if xs == [] then "" else Line(key, value)
  {
    if xs != [] {
      assert xs[1..] == [];
      assert SettingsText(xs) == Line(key, value) + "";
    }
  }

  /** The text written is the text of the written settings. */
  lemma {:induction false} ConfigTextSettings(a: Answers)
    ensures ConfigText(a) == SettingsText(WrittenSettings(a))
  {
    var s := WrittenSettings(a);
    var head := s[..3];
    var sel := if a.waitSelector != "" then [("wait_selector", a.waitSelector)] else [];
    var fun := if a.waitFunction != "" then [("wait_function", a.waitFunction)] else [];
    assert s == head + sel + fun;
    SettingsTextAppend(head + sel, fun);
    SettingsTextAppend(head, sel);
    assert head == [s[0], s[1], s[2]];
    SettingsTextThree(s[0], s[1], s[2]);
    SettingsTextOptional(sel, "wait_selector", a.waitSelector);
    SettingsTextOptional(fun, "wait_function", a.waitFunction);
    var t := SettingsText(head);
    assert t + "" == t;
    assert t + SettingsText(sel) + "" == t + SettingsText(sel);
  }

  /** The text written is the written settings, one `key=value` line each, every line ending in `\n`. */
  lemma {:induction false} ConfigTextLines(a: Answers)
    ensures ConfigText(a) == Unlines(RenderAll(WrittenSettings(a)))
  {
    ConfigTextSettings(a);
    SettingsTextAsUnlines(WrittenSettings(a));
  }

  /** A written value that `load_config` reads back unchanged: no `=`, no line break, no trailing whitespace. */
  predicate Representable(v: string)
  {
    && '=' !in v && '\n' !in v && '\r' !in v
    && (|v| == 0 || !IsSpace(v[|v| - 1]))
  }

  /** All answers that end up in the file can be read back. */
  predicate ReadableAnswers(a: Answers)
  {
    && Representable(a.mainUrl)
    && Representable(a.patterns)
    && Representable(a.waitSelector)
    && Representable(a.waitFunction)
  }

  /** Both browser choices read back unchanged. */
  lemma {:induction false} ChoiceRepresentable(b: bool)
    ensures Representable(PlaywrightChoice(b))
  {
    assert Representable("True") && Representable("False");
  }

  /** With readable answers, every written value is readable. */
  lemma {:induction false} WrittenValues(a: Answers)
    requires ReadableAnswers(a)
    ensures forall i :: 0 <= i < |WrittenSettings(a)| ==> Representable(WrittenSettings(a)[i].1)
  {
    ChoiceRepresentable(a.usePlaywright);
  }

  /** A line built from parts without line breaks has none. */
  lemma {:induction false} RenderedHasNoBreak(key: string, value: string)
    requires '\n' !in key && '\r' !in key && '\n' !in value && '\r' !in value
    ensures '\n' !in Render((key, value)) && '\r' !in Render((key, value))
  {
  }

  /** A setting line neither starts nor ends with whitespace, so stripping keeps it. */
  lemma {:induction false} StripSettingLine(key: string, value: string)
    requires |key| > 0 && !IsSpace(key[0])
    requires Representable(value)
    ensures Strip(key + "=" + value) == key + "=" + value
  {
    var line := key + "=" + value;
    assert line[0] == key[0];
    assert line[|line| - 1] == if |value| == 0 then '=' else value[|value| - 1];
    StripUnchanged(line);
  }

  /** A setting line splits at its one `=` into key and value. */
  lemma {:induction false} SplitSettingLine(key: string, value: string)
    requires '=' !in key && '=' !in value
    ensures Split(key + "=" + value, '=') == [key, value]
  {
    SplitJoin([key, value], '=');
    assert Join([key, value], '=') == key + "=" + value;
  }

  /** A key, `=` and a representable value parse back into that key and value. */
  lemma {:induction false} ParseSettingLine(key: string, value: string)
    requires |key| > 0 && !IsSpace(key[0]) && '=' !in key
    requires Representable(value)
    ensures ParseLine(Render((key, value))) == Entry(key, value)
  {
    StripSettingLine(key, value);
    SplitSettingLine(key, value);
  }

  /** The map a successful read gives back: every written setting under its key. */
  function WrittenMap(a: Answers): map<string, string>
  {
    var m := map[
      "main_url" := a.mainUrl,
      "external_link_patterns" := a.patterns,
      "use_playwright" := PlaywrightChoice(a.usePlaywright)];
    var m := if a.waitSelector != "" then m["wait_selector" := a.waitSelector] else m;
    if a.waitFunction != "" then m["wait_function" := a.waitFunction] else m
  }

  /** Settings that read back unchanged: key names and representable values. */
  predicate ReadableSettings(s: seq<(string, string)>)
  {
    forall i :: 0 <= i < |s| ==> IsKeyName(s[i].0) && Representable(s[i].1)
  }

  /** The parsed lines a list of settings should give: one entry per setting. */
  function Entries(s: seq<(string, string)>): (ps: seq<ParsedLine>)
    ensures |ps| == |s|
    ensures forall i :: 0 <= i < |s| ==> ps[i] == Entry(s[i].0, s[i].1)
  {
    if |s| == 0 then [] else [Entry(s[0].0, s[0].1)] + Entries(s[1..])
  }

  /** The settings stored into a map one after another, a later one overriding an earlier. */
  function Assign(s: seq<(string, string)>, config: map<string, string>): map<string, string>
  {
    if |s| == 0 then config else Assign(s[1..], config[s[0].0 := s[0].1])
  }

  /** Storing two lists of settings is storing the first, then the second. */
  lemma {:induction false} AssignAppend(xs: seq<(string, string)>, ys: seq<(string, string)>, config: map<string, string>)
    ensures Assign(xs + ys, config) == Assign(ys, Assign(xs, config))
    decreases |xs|
  {
    if |xs| == 0 {
      assert xs + ys == ys;
    } else {
      assert (xs + ys)[0] == xs[0];
      assert (xs + ys)[1..] == xs[1..] + ys;
      AssignAppend(xs[1..], ys, config[xs[0].0 := xs[0].1]);
    }
  }

  /** Storing no setting or at most one optional setting. */
  lemma {:induction false} AssignOptional(xs: seq<(string, string)>, key: string, value: string, config: map<string, string>)
    requires xs == [] || xs == [(key, value)]
    ensures Assign(xs, config) == if xs == [] then config else config[key := value]
  {
    if xs != [] {
      assert xs[1..] == [];
    }
  }

  /** Storing three settings one after another. */
  lemma {:induction false} AssignThree(x: (string, string), y: (string, string), z: (string, string), config: map<string, string>)
    ensures Assign([x, y, z], config) == config[x.0 := x.1][y.0 := y.1][z.0 := z.1]
  {
    var c1 := config[x.0 := x.1];
    var c2 := c1[y.0 := y.1];
    assert [x, y, z][1..] == [y, z];
    assert Assign([x, y, z], config) == Assign([y, z], c1);
    assert [y, z][1..] == [z];
    assert Assign([y, z], c1) == Assign([z], c2);
    assert [z][1..] == [];
    assert Assign([z], c2) == Assign([], c2[z.0 := z.1]);
  }

  /** The written settings, stored in order, give the written map. */
  lemma {:induction false} WrittenMapAssign(a: Answers)
    ensures Assign(WrittenSettings(a), map[]) == WrittenMap(a)
  {
    var s := WrittenSettings(a);
    var head := s[..3];
    var sel := if a.waitSelector != "" then [("wait_selector", a.waitSelector)] else [];
    var fun := if a.waitFunction != "" then [("wait_function", a.waitFunction)] else [];
    assert s == head + sel + fun;
    AssignAppend(head + sel, fun, map[]);
    AssignAppend(head, sel, map[]);
    assert head == [s[0], s[1], s[2]];
    AssignThree(s[0], s[1], s[2], map[]);
    AssignOptional(sel, "wait_selector", a.waitSelector, Assign(head, map[]));
    AssignOptional(fun, "wait_function", a.waitFunction, Assign(head + sel, map[]));
  }

  /** Every line of a readable settings text parses into its setting. */
  lemma {:induction false} ParsedSettings(s: seq<(string, string)>)
    requires ReadableSettings(s)
    ensures ParseLines(Lines(Unlines(RenderAll(s)))) == Entries(s)
  {
    var lines := RenderAll(s);
    forall k | 0 <= k < |lines|
      ensures '\n' !in lines[k] && '\r' !in lines[k]
    {
      KeyNameFacts(s[k].0);
      RenderedHasNoBreak(s[k].0, s[k].1);
    }
    LinesOfUnlines(lines);
    forall i | 0 <= i < |s|
      ensures ParseLine(lines[i]) == Entry(s[i].0, s[i].1)
    {
      KeyNameFacts(s[i].0);
      ParseSettingLine(s[i].0, s[i].1);
    }
  }

  /** Loading parsed settings stores them in order and never fails. */
  lemma {:induction false} LoadEntries(s: seq<(string, string)>, config: map<string, string>, index: nat)
    ensures Load(Entries(s), config, index) == Success(Assign(s, config))
    decreases |s|
  {
    if |s| > 0 {
      assert Entries(s)[1..] == Entries(s[1..]);
      LoadEntries(s[1..], config[s[0].0 := s[0].1], index + 1);
    }
  }

  /** A readable settings text loads back as its settings stored in order. */
  lemma {:induction false} LoadSettings(s: seq<(string, string)>)
    requires ReadableSettings(s)
    ensures LoadConfig(Unlines(RenderAll(s))) == Success(Assign(s, map[]))
  {
    ParsedSettings(s);
    LoadEntries(s, map[], 0);
  }

  /** Readable answers give readable settings. */
  lemma {:induction false} WrittenReadable(a: Answers)
    requires ReadableAnswers(a)
    ensures ReadableSettings(WrittenSettings(a))
  {
    WrittenKeys(a);
    WrittenValues(a);
  }

  /**
   * Round trip: a file written from readable answers loads back as exactly the
   * written settings.
   */
  lemma {:induction false} RoundTrip(a: Answers)
    requires ReadableAnswers(a)
    ensures LoadConfig(ConfigText(a)) == Success(WrittenMap(a))
  {
    WrittenReadable(a);
    ConfigTextLines(a);
    LoadSettings(WrittenSettings(a));
    WrittenMapAssign(a);
  }

  /** A line whose value holds `=` parses as malformed, into three or more pieces. */
  lemma {:induction false} ValueWithEquals(key: string, value: string)
    requires '=' !in key && '=' in value
    ensures ParseLine(Render((key, value))).Malformed?
    ensures ParseLine(Render((key, value))).pieces >= 3
  {
    var line := Render((key, value));
    assert line == key + ['='] + value;
    assert multiset(value)['='] >= 1;
    EqualsCount(key, value);
    assert multiset(Strip(line))['='] == multiset(line)['='];
  }

  /** A rendered line holds one `=` more than its value when the key has none. */
  lemma EqualsCount(key: string, value: string)
    requires '=' !in key
    ensures multiset(key + ['='] + value)['='] == 1 + multiset(value)['=']
  {
    assert multiset(key + ['='] + value) == multiset(key) + multiset(['=']) + multiset(value);
  }

  /** A line of a key with any value parses into an entry or into three or more pieces. */
  lemma {:induction false} KeyLinePieces(key: string, value: string)
    requires '=' !in key
    ensures ParseLine(Render((key, value))).Malformed? ==> ParseLine(Render((key, value))).pieces >= 3
  {
    var line := Render((key, value));
    assert line == key + ['='] + value;
    assert multiset(Strip(line))['='] == multiset(line)['='];
  }

  /**
   * Loading fails when some line does not parse; when every line that does not
   * parse has three or more pieces, so does the one reported.
   */
  lemma {:induction false} LoadParsedFailure(ps: seq<ParsedLine>, i: nat)
    requires i < |ps| && ps[i].Malformed?
    requires forall k :: 0 <= k < |ps| && ps[k].Malformed? ==> ps[k].pieces >= 3
    ensures Load(ps, map[], 0).Failure?
    ensures Load(ps, map[], 0).error.MalformedLine?
    ensures Load(ps, map[], 0).error.pieces >= 3
  {
    LoadFailure(ps, map[], 0);
  }

  /** Loading lines written out is loading their parses. */
  lemma {:induction false} LoadUnlines(lines: seq<string>)
    requires forall k :: 0 <= k < |lines| ==> '\n' !in lines[k] && '\r' !in lines[k]
    ensures LoadConfig(Unlines(lines)) == Load(ParseLines(lines), map[], 0)
  {
    LinesOfUnlines(lines);
  }

  /** Lines rendered from key names and values without line breaks have none. */
  lemma {:induction false} RenderedUnbroken(s: seq<(string, string)>)
    requires forall k :: 0 <= k < |s| ==> IsKeyName(s[k].0) && '\n' !in s[k].1 && '\r' !in s[k].1
    ensures forall k :: 0 <= k < |RenderAll(s)| ==> '\n' !in RenderAll(s)[k] && '\r' !in RenderAll(s)[k]
  {
    forall k | 0 <= k < |s|
      ensures '\n' !in RenderAll(s)[k] && '\r' !in RenderAll(s)[k]
    {
      KeyNameFacts(s[k].0);
      RenderedHasNoBreak(s[k].0, s[k].1);
    }
  }

  /**
   * Settings in which some value holds `=` do not load: the first malformed
   * line is reported, split into three or more pieces.
   */
  lemma {:induction false} SettingsWithEquals(s: seq<(string, string)>, i: nat)
    requires forall k :: 0 <= k < |s| ==> IsKeyName(s[k].0)
    requires i < |s| && '=' in s[i].1
    ensures Load(ParseLines(RenderAll(s)), map[], 0).Failure?
    ensures Load(ParseLines(RenderAll(s)), map[], 0).error.MalformedLine?
    ensures Load(ParseLines(RenderAll(s)), map[], 0).error.pieces >= 3
  {
    var ps := ParseLines(RenderAll(s));
    forall k | 0 <= k < |ps| && ps[k].Malformed?
      ensures ps[k].pieces >= 3
    {
      KeyNameFacts(s[k].0);
      KeyLinePieces(s[k].0, s[k].1);
    }
    KeyNameFacts(s[i].0);
    ValueWithEquals(s[i].0, s[i].1);
    LoadParsedFailure(ps, i);
  }

  /** The same for the text of such settings. */
  lemma {:induction false} SettingsTextWithEquals(s: seq<(string, string)>, i: nat)
    requires forall k :: 0 <= k < |s| ==> IsKeyName(s[k].0) && '\n' !in s[k].1 && '\r' !in s[k].1
    requires i < |s| && '=' in s[i].1
    ensures LoadConfig(Unlines(RenderAll(s))).Failure?
    ensures LoadConfig(Unlines(RenderAll(s))).error.MalformedLine?
    ensures LoadConfig(Unlines(RenderAll(s))).error.pieces >= 3
  {
    RenderedUnbroken(s);
    LoadUnlines(RenderAll(s));
    SettingsWithEquals(s, i);
  }

  /** An answer with `=` in it is the value of some written setting. */
  lemma {:induction false} AnswerWritten(a: Answers)
    requires '=' in a.mainUrl || '=' in a.patterns || '=' in a.waitSelector || '=' in a.waitFunction
    ensures exists i :: 0 <= i < |WrittenSettings(a)| && '=' in WrittenSettings(a)[i].1
  {
    var s := WrittenSettings(a);
    WrittenSettingsShape(a);
    if '=' in a.mainUrl {
      assert '=' in s[0].1;
    } else if '=' in a.patterns {
      assert '=' in s[1].1;
    } else if '=' in a.waitSelector {
      var j :| 0 <= j < |s| && s[j] == ("wait_selector", a.waitSelector);
      assert '=' in s[j].1;
    } else {
      var j :| 0 <= j < |s| && s[j] == ("wait_function", a.waitFunction);
      assert '=' in s[j].1;
    }
  }

  /** The answers hold no line break. */
  predicate UnbrokenAnswers(a: Answers)
  {
    && '\n' !in a.mainUrl && '\r' !in a.mainUrl
    && '\n' !in a.patterns && '\r' !in a.patterns
    && '\n' !in a.waitSelector && '\r' !in a.waitSelector
    && '\n' !in a.waitFunction && '\r' !in a.waitFunction
  }

  /** Without line breaks in the answers, no written value has one. */
  lemma {:induction false} WrittenUnbroken(a: Answers)
    requires UnbrokenAnswers(a)
    ensures forall k :: 0 <= k < |WrittenSettings(a)| ==> '\n' !in WrittenSettings(a)[k].1 && '\r' !in WrittenSettings(a)[k].1
  {
    ChoiceRepresentable(a.usePlaywright);
  }

  /**
   * A value holding `=` (a URL with a query string, a `===` test) makes the
   * written file unreadable: loading it fails on a line that splits into three
   * or more pieces.
   */
  lemma {:induction false} EqualsSignBreaksReadBack(a: Answers)
    requires UnbrokenAnswers(a)
    requires '=' in a.mainUrl || '=' in a.patterns || '=' in a.waitSelector || '=' in a.waitFunction
    ensures LoadConfig(ConfigText(a)).Failure?
    ensures LoadConfig(ConfigText(a)).error.MalformedLine?
    ensures LoadConfig(ConfigText(a)).error.pieces >= 3
  {
    var s := WrittenSettings(a);
    WrittenKeys(a);
    WrittenUnbroken(a);
    AnswerWritten(a);
    var i :| 0 <= i < |s| && '=' in s[i].1;
    ConfigTextLines(a);
    SettingsTextWithEquals(s, i);
  }

  /** The wait condition the crawler derives from the answers: the selector wins when both were given. */
  function AnsweredWait(a: Answers): WaitCondition
  {
    if a.waitSelector != "" then WaitForSelector(a.waitSelector)
    else if a.waitFunction != "" then WaitForFunction(a.waitFunction)
    else NoWait
  }

  /** The written map holds the URL answer. */
  lemma {:induction false} WrittenMainUrl(a: Answers)
    ensures "main_url" in WrittenMap(a) && WrittenMap(a)["main_url"] == a.mainUrl
  {
  }

  /** The written map holds the pattern answer. */
  lemma {:induction false} WrittenPatterns(a: Answers)
    ensures Patterns(WrittenMap(a)) == Split(a.patterns, ',')
  {
    assert Get(WrittenMap(a), "external_link_patterns", "") == a.patterns;
  }

  /** The written browser choice reads back as the answer. */
  lemma {:induction false} WrittenChoice(a: Answers)
    ensures UsePlaywright(WrittenMap(a)) == a.usePlaywright
  {
    assert WrittenMap(a)["use_playwright"] == PlaywrightChoice(a.usePlaywright);
    assert SpellsTrue("True") && !SpellsTrue("False");
  }

  /** The written wait settings read back as the answered wait condition. */
  lemma {:induction false} WrittenWait(a: Answers)
    ensures WaitConditionOf(WrittenMap(a)) == AnsweredWait(a)
  {
  }

  /** The written map is interpreted as the answers' job. */
  lemma {:induction false} InterpretWritten(a: Answers)
    ensures Interpret(WrittenMap(a)) ==
      Success(Job(a.mainUrl, Split(a.patterns, ','), a.usePlaywright, AnsweredWait(a)))
  {
    WrittenMainUrl(a);
    WrittenPatterns(a);
    WrittenChoice(a);
    WrittenWait(a);
  }

  /**
   * The job the crawler runs for a file written from readable answers: the same
   * URL, the comma-separated pieces of the patterns, the chosen strategy, and the
   * selector in preference to the function.
   */
  lemma {:induction false} ReadBackJob(a: Answers)
    requires ReadableAnswers(a)
    ensures ReadJob(ConfigText(a)) ==
      Success(Job(a.mainUrl, Split(a.patterns, ','), a.usePlaywright, AnsweredWait(a)))
  {
    RoundTrip(a);
    InterpretWritten(a);
  }
}

=== FILE: links.dfy ===
/** Resolution and pattern filtering of the anchors found in a page body (`extract_external_links`). */
module Links {
  import opened Text
  import opened Seqs
  import Url

  /**
   * Resolution of one href against the page's origin `base`: an href that starts
   * with `/` gets the origin put in front of it, any other href is kept exactly as
   * written (no `../` handling, no protocol-relative handling).
   */
  function Resolve(base: string, href: string): string
  {
    if StartsWith(href, "/") then base + href else href
  }

  /**
   * Either way the href is the tail of the resolved link, and with a non-empty
   * origin the href comes back unchanged exactly when it does not start with `/`.
   */
  lemma ResolveShape(base: string, href: string)
    ensures var link := Resolve(base, href);
      && |href| <= |link| && link[|link| - |href|..] == href
      && (link == href || link == base + href)
      && (|base| > 0 ==> (link == href <==> !StartsWith(href, "/")))
  {
    var link := Resolve(base, href);
    assert link[|link| - |href|..] == href;
  }

  /** Every href resolved against `base`, in document order. */
  function ResolveAll(base: string, hrefs: seq<string>): (links: seq<string>)
    ensures |links| == |hrefs|
    ensures forall i :: 0 <= i < |hrefs| ==> links[i] == Resolve(base, hrefs[i])
  {
    if |hrefs| == 0 then [] else [Resolve(base, hrefs[0])] + ResolveAll(base, hrefs[1..])
  }

  /** Python's `any(pattern in link for pattern in patterns)`. */
  predicate MatchesAny(link: string, patterns: seq<string>)
  {
    exists k :: 0 <= k < |patterns| && Contains(link, patterns[k])
  }

  /** The resolved hrefs that match a pattern, in document order, duplicates kept. */
  function Filter(base: string, hrefs: seq<string>, patterns: seq<string>): (links: seq<string>)
    ensures |links| <= |hrefs|
    ensures forall i :: 0 <= i < |links| ==> MatchesAny(links[i], patterns)
  {
    if |hrefs| == 0 then []
    else
      var link := Resolve(base, hrefs[0]);
      (if MatchesAny(link, patterns) then [link] else []) + Filter(base, hrefs[1..], patterns)
  }

  /**
   * `extract_external_links` over the hrefs of the anchors inside the page body:
   * never more links than anchors, and every link kept matches some pattern.
   */
  function ExtractLinks(hrefs: seq<string>, patterns: seq<string>, pageUrl: string): (links: seq<string>)
    ensures |links| <= |hrefs|
    ensures forall i :: 0 <= i < |links| ==> MatchesAny(links[i], patterns)
  {
    Filter(Url.BaseUrl(pageUrl), hrefs, patterns)
  }

  /** Filtering the anchors of two stretches of a page gives the two results one after the other. */
  lemma {:induction false} FilterAppend(base: string, a: seq<string>, b: seq<string>, patterns: seq<string>)
    ensures Filter(base, a + b, patterns) == Filter(base, a, patterns) + Filter(base, b, patterns)
    decreases |a|
  {
    if |a| == 0 {
      assert a + b == b;
    } else {
      assert (a + b)[0] == a[0];
      assert (a + b)[1..] == a[1..] + b;
      FilterAppend(base, a[1..], b, patterns);
    }
  }

  /** Some anchor of `hrefs` resolves to `x`. */
  predicate ResolvesTo(base: string, hrefs: seq<string>, x: string)
  {
    exists i :: 0 <= i < |hrefs| && Resolve(base, hrefs[i]) == x
  }

  /** An anchor resolving to `x` is either the first one or one of the rest. */
  lemma ResolvesToCons(base: string, hrefs: seq<string>, x: string)
    requires |hrefs| > 0
    ensures ResolvesTo(base, hrefs, x) <==> Resolve(base, hrefs[0]) == x || ResolvesTo(base, hrefs[1..], x)
  {
    if ResolvesTo(base, hrefs, x) {
      var i :| 0 <= i < |hrefs| && Resolve(base, hrefs[i]) == x;
      if i > 0 {
        assert hrefs[1..][i - 1] == hrefs[i];
      }
    }
    if ResolvesTo(base, hrefs[1..], x) {
      var i :| 0 <= i < |hrefs| - 1 && Resolve(base, hrefs[1..][i]) == x;
      assert hrefs[i + 1] == hrefs[1..][i];
    }
  }

  /** A link is extracted exactly when some anchor resolves to it and it matches a pattern. */
  lemma {:induction false} FilterMembership(base: string, hrefs: seq<string>, patterns: seq<string>, x: string)
    ensures x in Filter(base, hrefs, patterns) <==> MatchesAny(x, patterns) && ResolvesTo(base, hrefs, x)
    decreases |hrefs|
  {
    if |hrefs| > 0 {
      var link := Resolve(base, hrefs[0]);
      var head := if MatchesAny(link, patterns) then [link] else [];
      assert Filter(base, hrefs, patterns) == head + Filter(base, hrefs[1..], patterns);
      FilterMembership(base, hrefs[1..], patterns, x);
      ResolvesToCons(base, hrefs, x);
    }
  }

  /** The extracted links keep document order: they are a subsequence of the resolved hrefs. */
  lemma {:induction false} FilterSubsequence(base: string, hrefs: seq<string>, patterns: seq<string>)
    ensures IsSubsequence(Filter(base, hrefs, patterns), ResolveAll(base, hrefs))
    decreases |hrefs|
  {
    if |hrefs| > 0 {
      var r := Filter(base, hrefs, patterns);
      var rest := Filter(base, hrefs[1..], patterns);
      var all := ResolveAll(base, hrefs);
      var link := Resolve(base, hrefs[0]);
      FilterSubsequence(base, hrefs[1..], patterns);
      assert all == [link] + ResolveAll(base, hrefs[1..]);
      assert all[1..] == ResolveAll(base, hrefs[1..]);
      if MatchesAny(link, patterns) {
        assert r == [link] + rest;
        assert r[1..] == rest;
      } else {
        assert r == rest;
        SubsequenceOfTail(r, all);
      }
    }
  }

  /**
   * Duplicates are neither added nor merged: a link matching a pattern is kept as
   * many times as anchors resolve to it, any other link not at all.
   */
  lemma {:induction false} FilterCount(base: string, hrefs: seq<string>, patterns: seq<string>, x: string)
    ensures multiset(Filter(base, hrefs, patterns))[x] ==
      if MatchesAny(x, patterns) then multiset(ResolveAll(base, hrefs))[x] else 0
    decreases |hrefs|
  {
    if |hrefs| > 0 {
      var link := Resolve(base, hrefs[0]);
      var head := if MatchesAny(link, patterns) then [link] else [];
      var rest := Filter(base, hrefs[1..], patterns);
      assert Filter(base, hrefs, patterns) == head + rest;
      assert ResolveAll(base, hrefs) == [link] + ResolveAll(base, hrefs[1..]);
      FilterCount(base, hrefs[1..], patterns, x);
      assert multiset(head + rest) == multiset(head) + multiset(rest);
      assert multiset([link] + ResolveAll(base, hrefs[1..])) ==
        multiset([link]) + multiset(ResolveAll(base, hrefs[1..]));
    }
  }

  /** When every resolved href matches, all of them are kept, duplicates included. */
  lemma {:induction false} FilterKeepsAllMatching(base: string, hrefs: seq<string>, patterns: seq<string>)
    requires forall i :: 0 <= i < |hrefs| ==> MatchesAny(Resolve(base, hrefs[i]), patterns)
    ensures Filter(base, hrefs, patterns) == ResolveAll(base, hrefs)
    decreases |hrefs|
  {
    if |hrefs| > 0 {
      assert MatchesAny(Resolve(base, hrefs[0]), patterns);
      forall i | 0 <= i < |hrefs| - 1
        ensures MatchesAny(Resolve(base, hrefs[1..][i]), patterns)
      {
        assert hrefs[1..][i] == hrefs[i + 1];
      }
      FilterKeepsAllMatching(base, hrefs[1..], patterns);
    }
  }

  /** Order, membership and multiplicity of `ExtractLinks`, stated against the page's anchors. */
  lemma ExtractLinksSpec(hrefs: seq<string>, patterns: seq<string>, pageUrl: string, x: string)
    ensures var base := Url.BaseUrl(pageUrl);
      && IsSubsequence(ExtractLinks(hrefs, patterns, pageUrl), ResolveAll(base, hrefs))
      && (x in ExtractLinks(hrefs, patterns, pageUrl) <==>
          MatchesAny(x, patterns) && ResolvesTo(base, hrefs, x))
      && multiset(ExtractLinks(hrefs, patterns, pageUrl))[x] ==
          (if MatchesAny(x, patterns) then multiset(ResolveAll(base, hrefs))[x] else 0)
  {
    FilterSubsequence(Url.BaseUrl(pageUrl), hrefs, patterns);
    FilterMembership(Url.BaseUrl(pageUrl), hrefs, patterns, x);
    FilterCount(Url.BaseUrl(pageUrl), hrefs, patterns, x);
  }

  /** Extraction works anchor by anchor: the links of a concatenation are the concatenated links. */
  lemma ExtractLinksAppend(a: seq<string>, b: seq<string>, patterns: seq<string>, pageUrl: string)
    ensures ExtractLinks(a + b, patterns, pageUrl) ==
      ExtractLinks(a, patterns, pageUrl) + ExtractLinks(b, patterns, pageUrl)
  {
    FilterAppend(Url.BaseUrl(pageUrl), a, b, patterns);
  }

  /** With no patterns nothing is kept. */
  lemma {:induction false} FilterNoPatterns(base: string, hrefs: seq<string>)
    ensures Filter(base, hrefs, []) == []
    decreases |hrefs|
  {
    if |hrefs| > 0 {
      assert !MatchesAny(Resolve(base, hrefs[0]), []);
      FilterNoPatterns(base, hrefs[1..]);
    }
  }

  /** With no patterns no link is extracted. */
  lemma ExtractLinksNoPatterns(hrefs: seq<string>, pageUrl: string)
    ensures ExtractLinks(hrefs, [], pageUrl) == []
  {
    FilterNoPatterns(Url.BaseUrl(pageUrl), hrefs);
  }

  /**
   * The empty pattern occurs in every link, so a pattern list holding `""` (what an
   * absent or empty `external_link_patterns` setting produces) keeps every anchor.
   */
  lemma ExtractLinksEmptyPattern(hrefs: seq<string>, patterns: seq<string>, pageUrl: string)
    requires "" in patterns
    ensures ExtractLinks(hrefs, patterns, pageUrl) == ResolveAll(Url.BaseUrl(pageUrl), hrefs)
  {
    var base := Url.BaseUrl(pageUrl);
    var k :| 0 <= k < |patterns| && patterns[k] == "";
    forall i | 0 <= i < |hrefs|
      ensures MatchesAny(Resolve(base, hrefs[i]), patterns)
    {
      ContainsEmpty(Resolve(base, hrefs[i]));
    }
    FilterKeepsAllMatching(base, hrefs, patterns);
  }

  /**
   * A root-relative href on a page `scheme://netloc...` becomes
   * `lower(scheme)://netloc` followed by the href.
   */
  lemma ResolveRootRelative(scheme: string, netloc: string, tail: string, href: string)
    requires |scheme| > 0 && Url.IsAsciiAlpha(scheme[0])
    requires forall k :: 0 <= k < |scheme| ==> Url.IsSchemeChar(scheme[k])
    requires forall k :: 0 <= k < |netloc| ==> !Url.IsNetlocDelimiter(netloc[k])
    requires Url.IsSafe(netloc) && Url.IsSafe(tail)
    requires tail == "" || Url.IsNetlocDelimiter(tail[0])
    requires StartsWith(href, "/")
    ensures Resolve(Url.BaseUrl(scheme + "://" + netloc + tail), href) == Lower(scheme) + "://" + netloc + href
  {
    Url.BaseUrlOfAbsolute(scheme, netloc, tail);
  }
}

=== FILE: paths.dfy ===
/** The POSIX `os.path` functions the crawler uses to name its output. */
module Paths {
  import opened Text

  /** Position of the last `c` in `s`, or -1 when there is none (`str.rfind`). */
  function RIndexOf(s: string, c: char): (i: int)
    ensures -1 <= i < |s|
    ensures i >= 0 ==> s[i] == c
    ensures forall j :: i < j < |s| ==> s[j] != c
  {
    if |s| == 0 then -1
    else if s[|s| - 1] == c then |s| - 1
    else RIndexOf(s[..|s| - 1], c)
  }

  /**
   * `os.path.basename`: the text after the last `/`. The result is the longest
   * suffix of `p` without a `/`, so it is either all of `p` or preceded by a `/`.
   */
  function Basename(p: string): (r: string)
    ensures |r| <= |p| && r == p[|p| - |r|..]
    ensures '/' !in r
    ensures |r| == |p| || p[|p| - |r| - 1] == '/'
  {
    p[RIndexOf(p, '/') + 1..]
  }

  /** `os.path.join(a, b)` for two components. */
  function PathJoin(a: string, b: string): string
  {
    if StartsWith(b, "/") then b
    else if a == "" || a[|a| - 1] == '/' then a + b
    else a + "/" + b
  }

  /** Joining two plain components puts exactly one `/` between them. */
  lemma PathJoinPlain(a: string, b: string)
    requires a != "" && a[|a| - 1] != '/' && (b == "" || b[0] != '/')
    ensures PathJoin(a, b) == a + "/" + b
  {
    if b != "" {
      assert b[..1] == [b[0]];
    }
  }

  /**
   * `os.path.splitext`: `(root, ext)` with `root + ext == p`. A non-empty `ext`
   * starts at the last `.` of the last path component, has no further `.` or `/`,
   * and is only split off when the component has a character other than `.`
   * before it (so `.bashrc` and `..` keep an empty extension).
   */
  function SplitExt(p: string): (r: (string, string))
    ensures r.0 + r.1 == p
    ensures r.1 == "" || (r.1[0] == '.' && '.' !in r.1[1..] && '/' !in r.1)
    ensures r.1 != "" ==> exists j :: |p| - |Basename(p)| <= j < |r.0| && p[j] != '.'
  {
    var sepIndex := RIndexOf(p, '/');
    var dotIndex := RIndexOf(p, '.');
    if dotIndex > sepIndex && exists j :: sepIndex + 1 <= j < dotIndex && p[j] != '.' then
      (p[..dotIndex], p[dotIndex..])
    else
      (p, "")
  }

  /**
   * The converse: a `.` in the last component with a character other than `.`
   * before it there is split off, so the extension is not empty (and, by the
   * contract of `SplitExt`, starts at the last `.`).
   */
  lemma SplitExtFindsExtension(p: string, j: nat, k: nat)
    requires |p| - |Basename(p)| <= j < k < |p| && p[j] != '.' && p[k] == '.'
    ensures SplitExt(p).1 != ""
  {
    var sepIndex := RIndexOf(p, '/');
    var dotIndex := RIndexOf(p, '.');
    assert k <= dotIndex;
    assert sepIndex + 1 == |p| - |Basename(p)|;
    assert sepIndex + 1 <= j < dotIndex && p[j] != '.';
  }

  /** Name of a job: its file name without extension. */
  function JobBaseName(jobName: string): string
  {
    SplitExt(jobName).0
  }

  /** A job file `<name>.txt`, where the name has no `.` or `/`, has base name `<name>`. */
  lemma JobBaseNameOfTxt(name: string)
    requires name != "" && '.' !in name && '/' !in name
    ensures JobBaseName(name + ".txt") == name
  {
    var p := name + ".txt";
    assert forall i :: 0 <= i < |name| ==> p[i] == name[i] && name[i] in name;
    assert forall i :: |name| < i < |p| ==> p[i] != '.' && p[i] != '/';
    assert p[|name|] == '.';
    assert |Basename(p)| == |p|;
    SplitExtFindsExtension(p, 0, |name|);
    var r := SplitExt(p);
    assert p == r.0 + r.1 && p[|r.0|] == r.1[0];
  }

}

=== FILE: seqs.dfy ===
/** Order and counting facts about sequences used by the crawler model. */
module Seqs {

  /** `a` is obtained from `b` by deleting elements, keeping the order of the rest. */
  predicate IsSubsequence<T(==)>(a: seq<T>, b: seq<T>)
    decreases |b|
  {
    if |a| == 0 then true
    else if |b| == 0 then false
    else if a[0] == b[0] then IsSubsequence(a[1..], b[1..])
    else IsSubsequence(a, b[1..])
  }

  /** No element occurs twice. */
  predicate NoDuplicates<T(==)>(s: seq<T>)
  {
    forall i, j :: 0 <= i < j < |s| ==> s[i] != s[j]
  }

  /** A subsequence of the tail is a subsequence of the whole sequence. */
  lemma {:induction false} SubsequenceOfTail<T>(a: seq<T>, b: seq<T>)
    requires |b| > 0 && IsSubsequence(a, b[1..])
    ensures IsSubsequence(a, b)
    decreases |b|, 1
  {
    if |a| > 0 && a[0] == b[0] {
      SubsequenceDropFirst(a, b[1..]);
    }
  }

  /** Dropping the first element of a subsequence leaves a subsequence. */
  lemma {:induction false} SubsequenceDropFirst<T>(a: seq<T>, c: seq<T>)
    requires |a| > 0 && IsSubsequence(a, c)
    ensures IsSubsequence(a[1..], c)
    decreases |c| + 1, 0
  {
    if a[0] == c[0] {
      if |a| > 1 {
        SubsequenceOfTail(a[1..], c);
      }
    } else {
      SubsequenceDropFirst(a, c[1..]);
      if |a| > 1 {
        SubsequenceOfTail(a[1..], c);
      }
    }
  }

  /** A subsequence of the tail stays one when the head is kept on both sides. */
  lemma SubsequenceCons<T>(x: T, a: seq<T>, b: seq<T>)
    requires |b| > 0 && b[0] == x && IsSubsequence(a, b[1..])
    ensures IsSubsequence([x] + a, b)
  {
    assert ([x] + a)[1..] == a;
  }

  /** Past a prefix that ends in `x`, a sequence continues with `x`. */
  lemma SuffixAfterAppend<T>(a: seq<T>, x: T, c: seq<T>)
    requires IsPrefix(a + [x], c)
    ensures c[|a|..] == [x] + c[|a| + 1..]
  {
    assert c[|a|] == (a + [x])[|a|];
  }

  /** `a` is a prefix of `b`. */
  predicate IsPrefix<T(==)>(a: seq<T>, b: seq<T>)
  {
    |a| <= |b| && b[..|a|] == a
  }

  /** A prefix of a prefix is a prefix. */
  lemma PrefixTransitive<T>(a: seq<T>, b: seq<T>, c: seq<T>)
    requires IsPrefix(a, b) && IsPrefix(b, c)
    ensures IsPrefix(a, c)
  {
    assert c[..|a|] == c[..|b|][..|a|];
  }

  /** A sequence without duplicates has as many elements as its set. */
  lemma {:induction false} DistinctCardinality<T>(s: seq<T>)
    requires NoDuplicates(s)
    ensures |set n | n in s| == |s|
    decreases |s|
  {
    if |s| > 0 {
      DistinctCardinality(s[1..]);
      assert (set n | n in s) == (set n | n in s[1..]) + {s[0]};
      assert s[0] !in s[1..];
    }
  }
}

=== FILE: text.dfy ===
/** String operations of Python's `str` that the crawler relies on, over `seq<char>`. */
module Text {

  /** Position of the first `c` in `s`, or `|s|` when there is none (`str.find` with `-1` mapped to `|s|`). */
  function IndexOf(s: string, c: char): (i: nat)
    ensures i <= |s|
    ensures i < |s| ==> s[i] == c
    ensures forall j :: 0 <= j < i ==> s[j] != c
  {
    if |s| == 0 then 0
    else if s[0] == c then 0
    else 1 + IndexOf(s[1..], c)
  }

  /** `str.startswith`. */
  predicate StartsWith(s: string, prefix: string)
  {
    |prefix| <= |s| && s[..|prefix|] == prefix
  }

  /**
   * Python's `needle in haystack` on strings: a literal, case-sensitive substring
   * test, scanning for a start position from the left.
   */
  predicate Contains(haystack: string, needle: string)
    decreases |haystack|
  {
    StartsWith(haystack, needle) || (|haystack| > 0 && Contains(haystack[1..], needle))
  }

  /** `needle` occurs in `haystack` exactly when some position of `haystack` starts it. */
  lemma {:induction false} ContainsAt(haystack: string, needle: string)
    ensures Contains(haystack, needle) <==>
      exists i :: 0 <= i <= |haystack| && StartsWith(haystack[i..], needle)
    decreases |haystack|
  {
    if |haystack| > 0 {
      ContainsAt(haystack[1..], needle);
      if exists i :: 0 <= i <= |haystack| && StartsWith(haystack[i..], needle) {
        var i :| 0 <= i <= |haystack| && StartsWith(haystack[i..], needle);
        if i > 0 {
          assert haystack[1..][i - 1..] == haystack[i..];
        }
      }
      if StartsWith(haystack, needle) {
        assert haystack[0..] == haystack;
      } else if Contains(haystack[1..], needle) {
        var i :| 0 <= i <= |haystack| - 1 && StartsWith(haystack[1..][i..], needle);
        assert haystack[1..][i..] == haystack[i + 1..];
      }
    } else {
      assert haystack[0..] == haystack;
    }
  }

  /** The empty string occurs in every string. */
  lemma ContainsEmpty(s: string)
    ensures Contains(s, "")
  {
    assert s[..0] == "";
  }

  /** Inverse of `Split`: the parts with one `sep` between neighbours (`sep.join(parts)`). */
  function Join(parts: seq<string>, sep: char): string
  {
    if |parts| == 0 then ""
    else if |parts| == 1 then parts[0]
    else parts[0] + [sep] + Join(parts[1..], sep)
  }

  /**
   * `s.split(sep)` for a one-character separator: always at least one part, and
   * no part contains the separator.
   */
  function Split(s: string, sep: char): (parts: seq<string>)
    ensures |parts| >= 1
    ensures forall k :: 0 <= k < |parts| ==> sep !in parts[k]
    decreases |s|
  {
    var i := IndexOf(s, sep);
    if i == |s| then [s]
    else
      var rest := Split(s[i + 1..], sep);
      var parts := [s[..i]] + rest;
      assert parts[1..] == rest;
      parts
  }

  /** Splitting at the first separator: the text before it, then the split of the rest. */
  lemma SplitStep(s: string, sep: char)
    requires IndexOf(s, sep) < |s|
    ensures var i := IndexOf(s, sep);
      && Split(s, sep) == [s[..i]] + Split(s[i + 1..], sep)
      && s == s[..i] + [sep] + s[i + 1..]
      && sep !in s[..i]
  {
    var i := IndexOf(s, sep);
    assert sep !in s[..i];
    assert s == s[..i] + [sep] + s[i + 1..];
  }

  /** Joining a first part before at least one other puts one separator after it. */
  lemma JoinCons(a: string, parts: seq<string>, sep: char)
    requires |parts| >= 1
    ensures Join([a] + parts, sep) == a + [sep] + Join(parts, sep)
  {
    assert ([a] + parts)[1..] == parts;
  }

  /** Joining the parts of a split back with the separator gives the string split. */
  lemma {:induction false} JoinSplit(s: string, sep: char)
    ensures Join(Split(s, sep), sep) == s
    decreases |s|
  {
    var i := IndexOf(s, sep);
    if i < |s| {
      SplitStep(s, sep);
      JoinSplit(s[i + 1..], sep);
      JoinCons(s[..i], Split(s[i + 1..], sep), sep);
    }
  }

  /** `s.split(sep)` has exactly one more part than `s` has separators. */
  lemma {:induction false} SplitCount(s: string, sep: char)
    ensures |Split(s, sep)| == multiset(s)[sep] + 1
    decreases |s|
  {
    var i := IndexOf(s, sep);
    if i == |s| {
      assert multiset(s)[sep] == 0 by {
        assert sep !in s;
      }
    } else {
      SplitStep(s, sep);
      SplitCount(s[i + 1..], sep);
      CountAroundFirst(s[..i], sep, s[i + 1..]);
    }
  }

  /** A separator placed after text without one adds one to the count of the text after it. */
  lemma CountAroundFirst(a: string, sep: char, b: string)
    requires sep !in a
    ensures multiset(a + [sep] + b)[sep] == multiset(b)[sep] + 1
  {
    assert multiset(a)[sep] == 0;
    assert multiset(a + [sep] + b) == multiset(a) + multiset([sep]) + multiset(b);
  }

  /** In `a + [c] + b` with no `c` in `a`, the first `c` is the one after `a`. */
  lemma IndexOfAfter(a: string, c: char, b: string)
    requires c !in a
    ensures IndexOf(a + [c] + b, c) == |a|
  {
    var s := a + [c] + b;
    var i := IndexOf(s, c);
    assert s[|a|] == c;
    assert forall j :: 0 <= j < |a| ==> s[j] == a[j];
  }

  /** `Split` undoes `Join` when no part contains the separator. */
  lemma {:induction false} SplitJoin(parts: seq<string>, sep: char)
    requires |parts| >= 1
    requires forall k :: 0 <= k < |parts| ==> sep !in parts[k]
    ensures Split(Join(parts, sep), sep) == parts
    decreases |parts|
  {
    if |parts| == 1 {
      assert IndexOf(parts[0], sep) == |parts[0]|;
    } else {
      var tail := Join(parts[1..], sep);
      var s := parts[0] + [sep] + tail;
      assert Join(parts, sep) == s;
      IndexOfAfter(parts[0], sep, tail);
      assert s[..|parts[0]|] == parts[0];
      assert s[|parts[0]| + 1..] == tail;
      assert Split(s, sep) == [parts[0]] + Split(tail, sep);
      SplitJoin(parts[1..], sep);
      assert parts == [parts[0]] + parts[1..];
    }
  }

  /** Python's `str.isspace` for one character: the characters `str.strip()` removes. */
  predicate IsSpace(c: char)
  {
    || '\t' <= c <= '\r'
    || '\U{1c}' <= c <= ' '
    || c == '\U{85}' || c == '\U{a0}' || c == '\U{1680}'
    || '\U{2000}' <= c <= '\U{200a}'
    || c == '\U{2028}' || c == '\U{2029}' || c == '\U{202f}' || c == '\U{205f}' || c == '\U{3000}'
  }

  /** `s` with its leading whitespace removed. */
  function TrimStart(s: string): (r: string)
    ensures |r| <= |s| && r == s[|s| - |r|..]
    ensures |r| == 0 || !IsSpace(r[0])
    ensures forall j :: 0 <= j < |s| - |r| ==> IsSpace(s[j])
  {
    if |s| > 0 && IsSpace(s[0]) then
      var r := TrimStart(s[1..]);
      assert s[1..][|s| - 1 - |r|..] == s[|s| - |r|..];
      assert forall j :: 1 <= j < |s| - |r| ==> s[1..][j - 1] == s[j];
      r
    else
      s
  }

  /** `s` with its trailing whitespace removed. */
  function TrimEnd(s: string): (r: string)
    ensures |r| <= |s| && r == s[..|r|]
    ensures |r| == 0 || !IsSpace(r[|r| - 1])
    ensures forall j :: |r| <= j < |s| ==> IsSpace(s[j])
  {
    if |s| > 0 && IsSpace(s[|s| - 1]) then TrimEnd(s[..|s| - 1]) else s
  }

  /**
   * `str.strip()`: the longest middle slice of `s` that neither starts nor ends with
   * whitespace; only whitespace is removed, so every other character keeps its count.
   */
  function Strip(s: string): (r: string)
    ensures |r| <= |s|
    ensures |r| == 0 || (!IsSpace(r[0]) && !IsSpace(r[|r| - 1]))
    ensures forall c :: !IsSpace(c) ==> multiset(r)[c] == multiset(s)[c]
    ensures exists i :: MiddleSlice(s, r, i)
  {
    var t := TrimStart(s);
    var r := TrimEnd(t);
    StripCounts(s, t, r);
    StripSlice(s, t, r);
    r
  }

  /** `r` is the slice of `s` starting at `i`, and everything around it is whitespace. */
  predicate MiddleSlice(s: string, r: string, i: int)
  {
    && 0 <= i <= |s| - |r| && r == s[i..i + |r|]
    && (forall j :: 0 <= j < i ==> IsSpace(s[j]))
    && (forall j :: i + |r| <= j < |s| ==> IsSpace(s[j]))
  }

  /** Removing whitespace from the front, then from the back, leaves a middle slice. */
  lemma StripSlice(s: string, t: string, r: string)
    requires |t| <= |s| && t == s[|s| - |t|..]
    requires forall j :: 0 <= j < |s| - |t| ==> IsSpace(s[j])
    requires |r| <= |t| && r == t[..|r|]
    requires forall j :: |r| <= j < |t| ==> IsSpace(t[j])
    ensures MiddleSlice(s, r, |s| - |t|)
  {
    var i := |s| - |t|;
    assert t == s[i..];
    forall j | i + |r| <= j < |s|
      ensures IsSpace(s[j])
    {
      assert s[j] == t[j - i];
    }
  }

  /** Removing whitespace from both ends keeps the count of every other character. */
  lemma StripCounts(s: string, t: string, r: string)
    requires |t| <= |s| && t == s[|s| - |t|..]
    requires forall j :: 0 <= j < |s| - |t| ==> IsSpace(s[j])
    requires |r| <= |t| && r == t[..|r|]
    requires forall j :: |r| <= j < |t| ==> IsSpace(t[j])
    ensures forall c :: !IsSpace(c) ==> multiset(r)[c] == multiset(s)[c]
  {
    var front, back := s[..|s| - |t|], t[|r|..];
    assert s == front + t;
    assert t == r + back;
    assert multiset(s) == multiset(front) + multiset(r) + multiset(back);
    forall c | !IsSpace(c)
      ensures multiset(r)[c] == multiset(s)[c]
    {
      NoCountOfNonSpace(front, c);
      NoCountOfNonSpace(back, c);
    }
  }

  /** A string made only of whitespace holds no other character. */
  lemma NoCountOfNonSpace(w: string, c: char)
    requires forall j :: 0 <= j < |w| ==> IsSpace(w[j])
    requires !IsSpace(c)
    ensures multiset(w)[c] == 0
  {
    assert c !in w;
  }

  /** A string that neither starts nor ends with whitespace is left alone by `Strip`. */
  lemma StripUnchanged(s: string)
    requires |s| == 0 || (!IsSpace(s[0]) && !IsSpace(s[|s| - 1]))
    ensures Strip(s) == s
  {
  }

  /** ASCII lower-casing of one character. */
  function LowerChar(c: char): char
  {
    if 'A' <= c <= 'Z' then (c as int + 32) as char else c
  }

  /** `str.lower()` restricted to ASCII letters. */
  function Lower(s: string): (r: string)
    ensures |r| == |s|
    ensures forall i :: 0 <= i < |s| ==> r[i] == LowerChar(s[i])
  {
    if |s| == 0 then "" else [LowerChar(s[0])] + Lower(s[1..])
  }
}

=== FILE: url.dfy ===
/**
 * The part of `urllib.parse.urlsplit` that `get_base_url` depends on: the scheme
 * and the network location. Query, fragment and parameters are never looked at.
 */
module Url {
  import opened Text

  predicate IsAsciiAlpha(c: char)
  {
    'a' <= c <= 'z' || 'A' <= c <= 'Z'
  }

  /** Characters allowed in a URL scheme. */
  predicate IsSchemeChar(c: char)
  {
    IsAsciiAlpha(c) || '0' <= c <= '9' || c == '+' || c == '-' || c == '.'
  }

  /** Characters that end the network location. */
  predicate IsNetlocDelimiter(c: char)
  {
    c == '/' || c == '?' || c == '#'
  }

  /** Characters deleted from anywhere in a URL before it is split. */
  predicate IsUnsafe(c: char)
  {
    c == '\t' || c == '\r' || c == '\n'
  }

  /** Leading C0 control characters and spaces are stripped before splitting. */
  function StripLeadingControls(s: string): (r: string)
    ensures |r| <= |s| && r == s[|s| - |r|..]
    ensures |r| == 0 || r[0] > ' '
  {
    if |s| > 0 && s[0] <= ' ' then StripLeadingControls(s[1..]) else s
  }

  /** The URL with every tab, carriage return and line feed deleted. */
  function RemoveUnsafe(s: string): (r: string)
    ensures IsSafe(r)
    ensures IsSafe(s) ==> r == s
  {
    if |s| == 0 then ""
    else if IsUnsafe(s[0]) then RemoveUnsafe(s[1..])
    else [s[0]] + RemoveUnsafe(s[1..])
  }

  /** Position of the first delimiter in `s`, or `|s|`. */
  function NetlocEnd(s: string): (i: nat)
    ensures i <= |s|
    ensures i < |s| ==> IsNetlocDelimiter(s[i])
    ensures forall j :: 0 <= j < i ==> !IsNetlocDelimiter(s[j])
  {
    if |s| == 0 || IsNetlocDelimiter(s[0]) then 0 else 1 + NetlocEnd(s[1..])
  }

  /** The scheme and network location `urlsplit` finds in a URL. */
  datatype Location = Location(scheme: string, netloc: string)

  /** `url[..i]` is a scheme when it is non-empty, starts with a letter and uses only scheme characters. */
  predicate HasSchemeBefore(u: string, i: nat)
    requires i <= |u|
  {
    0 < i && IsAsciiAlpha(u[0]) && forall k :: 0 <= k < i ==> IsSchemeChar(u[k])
  }

  /** The URL as `urlsplit` sees it after its clean-up. */
  function Clean(url: string): string
  {
    RemoveUnsafe(StripLeadingControls(url))
  }

  /** The network location of what follows the scheme: the text after a leading `//` up to the first delimiter. */
  function NetlocOf(rest: string): (netloc: string)
    ensures forall k :: 0 <= k < |netloc| ==> !IsNetlocDelimiter(netloc[k])
    ensures IsSafe(rest) ==> IsSafe(netloc)
  {
    if StartsWith(rest, "//") then rest[2..2 + NetlocEnd(rest[2..])] else ""
  }

  /**
   * `urlsplit(url)` restricted to scheme and netloc. The scheme is lower-cased and
   * only ever holds scheme characters; the netloc never holds a delimiter.
   */
  function Parse(url: string): (loc: Location)
    ensures forall k :: 0 <= k < |loc.scheme| ==> IsSchemeChar(loc.scheme[k]) && !('A' <= loc.scheme[k] <= 'Z')
    ensures forall k :: 0 <= k < |loc.netloc| ==> !IsNetlocDelimiter(loc.netloc[k]) && !IsUnsafe(loc.netloc[k])
  {
    var u := Clean(url);
    var i := IndexOf(u, ':');
    if i < |u| && HasSchemeBefore(u, i) then
      SafeSuffix(u, i + 1);
      Location(SchemeName(u[..i]), NetlocOf(u[i + 1..]))
    else
      Location("", NetlocOf(u))
  }

  /** The scheme as `urlsplit` reports it: lower-cased, still of scheme characters only. */
  function SchemeName(s: string): (r: string)
    requires forall k :: 0 <= k < |s| ==> IsSchemeChar(s[k])
    ensures forall k :: 0 <= k < |r| ==> IsSchemeChar(r[k]) && !('A' <= r[k] <= 'Z')
  {
    var r := Lower(s);
    forall k | 0 <= k < |r|
      ensures IsSchemeChar(r[k]) && !('A' <= r[k] <= 'Z')
    {
      assert IsSchemeChar(s[k]);
    }
    r
  }

  /** What follows a position of a safe text is safe. */
  lemma SafeSuffix(s: string, i: nat)
    requires IsSafe(s) && i <= |s|
    ensures IsSafe(s[i..])
  {
    assert forall k :: 0 <= k < |s[i..]| ==> s[i..][k] == s[i + k];
  }

  /** `get_base_url`: `scheme://netloc` of a URL. */
  function BaseUrl(url: string): string
  {
    var loc := Parse(url);
    loc.scheme + "://" + loc.netloc
  }

  /** No tab, carriage return or line feed anywhere in `s`. */
  predicate IsSafe(s: string)
  {
    forall k :: 0 <= k < |s| ==> !IsUnsafe(s[k])
  }

  lemma SafeConcat(a: string, b: string)
    requires IsSafe(a) && IsSafe(b)
    ensures IsSafe(a + b)
  {
    forall k | 0 <= k < |a + b|
      ensures !IsUnsafe((a + b)[k])
    {
      if k >= |a| {
        assert (a + b)[k] == b[k - |a|];
      }
    }
  }

  /** `:` is not a scheme character, so the first `:` of a URL ends its scheme. */
  lemma FirstColonEndsScheme(scheme: string, after: string)
    requires forall k :: 0 <= k < |scheme| ==> IsSchemeChar(scheme[k])
    ensures IndexOf(scheme + [':'] + after, ':') == |scheme|
  {
    assert ':' !in scheme by {
      forall k | 0 <= k < |scheme|
        ensures scheme[k] != ':'
      {
        assert IsSchemeChar(scheme[k]);
      }
    }
    IndexOfAfter(scheme, ':', after);
  }

  /** A URL that starts with a letter and holds no tab or line break is not changed by the clean-up. */
  lemma CleanUnchanged(url: string)
    requires |url| > 0 && IsAsciiAlpha(url[0]) && IsSafe(url)
    ensures Clean(url) == url
  {
  }

  /** The netloc of `//netloc` followed by a path, query or fragment. */
  lemma NetlocOfAbsolute(netloc: string, tail: string)
    requires forall k :: 0 <= k < |netloc| ==> !IsNetlocDelimiter(netloc[k])
    requires tail == "" || IsNetlocDelimiter(tail[0])
    ensures NetlocOf("//" + netloc + tail) == netloc
  {
    var after := "//" + netloc + tail;
    assert StartsWith(after, "//");
    assert after[2..] == netloc + tail;
    NetlocEndAfter(netloc, tail);
    assert after[2..2 + |netloc|] == netloc;
  }

  /** A URL written as `scheme://netloc` followed by a path, query or fragment splits into those parts. */
  lemma ParseOfAbsolute(scheme: string, netloc: string, tail: string)
    requires |scheme| > 0 && IsAsciiAlpha(scheme[0])
    requires forall k :: 0 <= k < |scheme| ==> IsSchemeChar(scheme[k])
    requires forall k :: 0 <= k < |netloc| ==> !IsNetlocDelimiter(netloc[k])
    requires IsSafe(netloc) && IsSafe(tail)
    requires tail == "" || IsNetlocDelimiter(tail[0])
    ensures Parse(scheme + "://" + netloc + tail) == Location(Lower(scheme), netloc)
  {
    AbsoluteFacts(scheme, netloc, tail);
    var url := scheme + "://" + netloc + tail;
    ParseWithScheme(url, |scheme|);
    NetlocOfAbsolute(netloc, tail);
  }

  /** What the parser needs to know about `scheme://netloc` followed by a tail. */
  lemma AbsoluteFacts(scheme: string, netloc: string, tail: string)
    requires |scheme| > 0 && IsAsciiAlpha(scheme[0])
    requires forall k :: 0 <= k < |scheme| ==> IsSchemeChar(scheme[k])
    requires IsSafe(netloc) && IsSafe(tail)
    ensures var url := scheme + "://" + netloc + tail;
      && |scheme| < |url|
      && Clean(url) == url
      && IndexOf(url, ':') == |scheme|
      && HasSchemeBefore(url, |scheme|)
      && url[..|scheme|] == scheme
      && url[|scheme| + 1..] == "//" + netloc + tail
  {
    var after := "//" + netloc + tail;
    assert scheme + [':'] + after == scheme + "://" + netloc + tail;
    SafeConcat("//", netloc);
    SafeConcat("//" + netloc, tail);
    SchemePrefix(scheme, after);
  }

  /** `scheme:` followed by anything: the scheme is recognised and the URL is unchanged by the clean-up. */
  lemma SchemePrefix(scheme: string, after: string)
    requires |scheme| > 0 && IsAsciiAlpha(scheme[0])
    requires forall k :: 0 <= k < |scheme| ==> IsSchemeChar(scheme[k])
    requires IsSafe(after)
    ensures var url := scheme + [':'] + after;
      && Clean(url) == url
      && IndexOf(url, ':') == |scheme|
      && HasSchemeBefore(url, |scheme|)
      && url[..|scheme|] == scheme
      && url[|scheme| + 1..] == after
  {
    CleanOfScheme(scheme, after);
    FirstColonEndsScheme(scheme, after);
    SchemeRecognised(scheme, after);
  }

  /** The clean-up leaves `scheme:` followed by a safe tail alone. */
  lemma CleanOfScheme(scheme: string, after: string)
    requires |scheme| > 0 && IsAsciiAlpha(scheme[0])
    requires forall k :: 0 <= k < |scheme| ==> IsSchemeChar(scheme[k])
    requires IsSafe(after)
    ensures Clean(scheme + [':'] + after) == scheme + [':'] + after
  {
    var url := scheme + [':'] + after;
    SchemeIsSafe(scheme);
    SafeConcat(scheme + [':'], after);
    assert url[0] == scheme[0];
    CleanUnchanged(url);
  }

  /** The text before the `:` is taken as the scheme, and the text after it is what follows. */
  lemma SchemeRecognised(scheme: string, after: string)
    requires |scheme| > 0 && IsAsciiAlpha(scheme[0])
    requires forall k :: 0 <= k < |scheme| ==> IsSchemeChar(scheme[k])
    ensures var url := scheme + [':'] + after;
      && HasSchemeBefore(url, |scheme|)
      && url[..|scheme|] == scheme
      && url[|scheme| + 1..] == after
  {
    var url := scheme + [':'] + after;
    assert url[..|scheme|] == scheme;
    assert forall k :: 0 <= k < |scheme| ==> url[k] == scheme[k];
  }

  /** Scheme characters are never removed by the clean-up, and neither is the `:` after them. */
  lemma SchemeIsSafe(scheme: string)
    requires forall k :: 0 <= k < |scheme| ==> IsSchemeChar(scheme[k])
    ensures IsSafe(scheme + [':'])
  {
    forall k | 0 <= k < |scheme| + 1
      ensures !IsUnsafe((scheme + [':'])[k])
    {
      if k < |scheme| {
        assert IsSchemeChar(scheme[k]);
      }
    }
  }

  /** A cleaned URL whose first `:` ends a valid scheme splits at that `:`. */
  lemma ParseWithScheme(url: string, n: nat)
    requires Clean(url) == url
    requires n < |url| && IndexOf(url, ':') == n
    requires HasSchemeBefore(url, n)
    ensures Parse(url) == Location(Lower(url[..n]), NetlocOf(url[n + 1..]))
  {
  }

  /** Such a URL has `lower(scheme)://netloc` as its base. */
  lemma BaseUrlOfAbsolute(scheme: string, netloc: string, tail: string)
    requires |scheme| > 0 && IsAsciiAlpha(scheme[0])
    requires forall k :: 0 <= k < |scheme| ==> IsSchemeChar(scheme[k])
    requires forall k :: 0 <= k < |netloc| ==> !IsNetlocDelimiter(netloc[k])
    requires IsSafe(netloc) && IsSafe(tail)
    requires tail == "" || IsNetlocDelimiter(tail[0])
    ensures BaseUrl(scheme + "://" + netloc + tail) == Lower(scheme) + "://" + netloc
  {
    ParseOfAbsolute(scheme, netloc, tail);
  }

  /** The network location ends where the delimiter-free prefix ends. */
  lemma NetlocEndAfter(netloc: string, tail: string)
    requires forall k :: 0 <= k < |netloc| ==> !IsNetlocDelimiter(netloc[k])
    requires tail == "" || IsNetlocDelimiter(tail[0])
    ensures NetlocEnd(netloc + tail) == |netloc|
  {
    var s := netloc + tail;
    var i := NetlocEnd(s);
    assert forall k :: 0 <= k < |netloc| ==> s[k] == netloc[k];
    if |tail| > 0 {
      assert s[|netloc|] == tail[0];
    }
  }

  /**
   * A URL with no `:` has no scheme, and unless it starts with `//` no netloc either,
   * so its base is the degenerate `://`.
   */
  lemma BaseUrlWithoutScheme(url: string)
    requires |url| == 0 || url[0] > ' '
    requires IsSafe(url) && ':' !in url && !StartsWith(url, "//")
    ensures BaseUrl(url) == "://"
  {
    assert Clean(url) == url;
    assert IndexOf(url, ':') == |url|;
  }
}

=== FILE: wrappers.dfy ===
/** Failure-carrying datatypes shared by the whole model. */
module Wrappers {

  /** An optional value: Python's `None` or a present value. */
  datatype Option<+T> = None | Some(value: T)

  /** The outcome of an operation that raises in the program. */
  datatype Result<+R, +E> = Success(value: R) | Failure(error: E)
}
